=== FILE: README.md ===
# Rizeos job board: the decision rules, in Dafny

Rizeos is a job board with a social feed. It has an Express/Mongoose server and a React client. Most of it is glue between HTTP, a database and two hosted services. Inside that glue sits a small set of deterministic rules, and this project models them:

- **The skill-match score** (`calculateMatchScore`) and its badge colour.
- **Post handlers**: media upload, create, clap toggle, comment and share.
- **The connection graph**: connection requests, accepting them, and the client's interact button that mirrors the server's checks.
- **Profile routes**: reading one's own profile, and the whitelisted partial update.
- **The upload filter**: the file-type pattern and the size limit.
- **Client list helpers**:
  - the media carousel's wrap-around indices;
  - the dashboard's skills text (parse, keyword extraction, resume merge, cancel);
  - the applicant status panel;
  - the feed's add and replace.
- **Queries**: the recommendation query and the job feed, written as list functions.
- **Documents**: the three Mongoose schemas (User, Job, Post), with their required paths and defaults.

Each route is a pure function from the stored collection and the request to the collection after the call and the HTTP answer. The answer is a `Result`: either a value, or a status code and a message. Several things become parameters:

- the authenticated user's id;
- the clock;
- the media host's answer;
- the keyword extractor's output;
- the outcome of a client request.

Each handler is treated as atomic. The modules follow the source files:

| module | file |
|---|---|
| `Wrappers` | `Option`, `Result` with an HTTP status, and a state/answer pair |
| `Text` | the JavaScript string operations used: `trim`, `toLowerCase`, `split`, `join`, and substring search |
| `Seqs` | `filter`, insertion-ordered sets, sorting newest first, `limit` |
| `UserModel`, `JobModel`, `PostModel` | `server/models/User.js`, `Job.js`, `Post.js` |
| `JobsFeed` | `client/src/components/JobsFeed.jsx` |
| `Upload` | `server/middleware/upload.js` |
| `Posts` | `server/routes/posts.js` |
| `Profiles` | `server/routes/profiles.js` |
| `Profile` | `server/routes/profile.js` |
| `Jobs` | `server/routes/jobs.js` |
| `Recommendations` | `server/routes/recommendations.js` |
| `MediaModal`, `Dashboard`, `JobApplications`, `Feed`, `ProfilePage` | the client components of the same names |

Two behaviours of the score are easy to misread:

- **Score normalisation.** `JobsFeed.jsx` lower-cases and trims each skill and changes nothing else. A trailing period stays, so "react." does not match "React" (`JobsFeed.NormalisationExamples`).
- **A score of 100.** `Math.round` gives 100 from 99.5% of the distinct job skills upward, so 199 of 200 already scores 100. `JobsFeed.FullMatch` states this exact condition. Below 200 distinct job skills, 100 means that every job skill is held.

## Model

| member | source | states |
|---|---|---|
| JobsFeed.MatchScore | client/src/components/JobsFeed.jsx:44-55 | 0 when either list is missing or empty. Otherwise, with `i` distinct normalised job skills held out of `j` (`0 < j`, `i <= j`), the score is `100·i/j` rounded half up, so it lies in 0..100 |
| JobsFeed.RoundRatio | client/src/components/JobsFeed.jsx:52-54 | `Math.round(num/den)`: the result `r` satisfies `r - 1/2 <= num/den < r + 1/2` |
| JobsFeed.FullMatch | client/src/components/JobsFeed.jsx:50-54 | The score is 100 exactly when at least 99.5% of the distinct job skills are held. Holding all of them always scores 100. Below 200 distinct job skills, 100 means all are held |
| JobsFeed.ScoreMonotone | client/src/components/JobsFeed.jsx:50-52 | Giving the user more skills never lowers the score |
| JobsFeed.ScoreOnlyOnNormalisedSets | client/src/components/JobsFeed.jsx:47-48 | Lists with the same lower-cased, trimmed sets score the same: order, repeats, case and surrounding space do not matter |
| JobsFeed.NormalisationExamples | client/src/components/JobsFeed.jsx:47-48 | "React, Node" fully matches "react". A trailing period is kept, so "react." scores 0 against "REACT". An empty or missing list scores 0 |
| JobsFeed.DisjointScoresZero | client/src/components/JobsFeed.jsx:47-54 | Two non-empty lists with no normalised skill in common score 0 |
| JobsFeed.SingleMismatch | client/src/components/JobsFeed.jsx:47-54 | One skill against one it does not normalise to scores 0 |
| JobsFeed.BadgeFor | client/src/components/JobsFeed.jsx:84 | Green exactly from 75, yellow exactly on 50..74, gray exactly below 50 |
| JobsFeed.BadgeMonotone | client/src/components/JobsFeed.jsx:84 | A higher score never gets a lower badge |
| Upload.ExtName | server/middleware/upload.js:11 | Node's `path.extname`: empty, or a `.` followed by no further `.` and no `/`. It is always a tail of the path once trailing slashes are dropped |
| Upload.SegmentExt | server/middleware/upload.js:11 | The extension of one path segment: empty, or a `.` followed by no further `.`, and always a tail of the segment |
| Upload.ExtNameOf | server/middleware/upload.js:11 | For a non-empty name without `/`, a dot and a non-empty extension without `.` or `/`, the extension is that dot and extension |
| Upload.ExtNameLeadingDot | server/middleware/upload.js:11 | A last segment whose only dot is its first character, such as ".env", has no extension |
| Upload.ExtNameLastSegment | server/middleware/upload.js:11 | Directories in front of the last segment do not change the extension |
| Upload.DottedNameAdmitted | server/middleware/upload.js:11-16 | A name, a dot and an extension is admitted when the lower-cased dotted extension and the MIME type both match |
| Upload.CheckFileType | server/middleware/upload.js:6-20 | Admitted exactly when both the lower-cased extension and the MIME type contain one of the eight alternatives. A refusal carries the invalid-type message |
| Upload.Receive | server/middleware/upload.js:22-26 | A file reaches the route unchanged exactly when the filter admits it and it is at most 50·1024·1024 bytes. Anything larger is refused. Refusals end in 500 |
| Upload.UnanchoredPattern | server/middleware/upload.js:8 | The pattern is not anchored: any name ending in ".jpgx", such as "holiday.jpgx", is admitted with a matching MIME type |
| Upload.ExtensionLowered | server/middleware/upload.js:11 | Any name ending in ".PNG", such as "photo.PNG", is admitted with a matching MIME type, because the extension is lower-cased first |
| Upload.UpperPngRefused | server/middleware/upload.js:8-11 | ".PNG" itself matches none of the alternatives, so the lower-casing is what admits it |
| Upload.MatchImageJpeg | server/middleware/upload.js:13 | "image/jpeg" matches the pattern |
| Upload.MatchImagePng | server/middleware/upload.js:13 | "image/png" matches the pattern |
| Upload.MimeTypeNotLowered | server/middleware/upload.js:13 | The MIME type is not lower-cased: "IMAGE/PNG" is refused even with a ".png" name |
| Posts.MediaTypeFor | server/routes/posts.js:27-30 | "video" exactly when the host reports a video. Otherwise "pdf" exactly when the MIME type is `application/pdf`. Otherwise "image" |
| Posts.UploadMedia | server/routes/posts.js:18-37 | No file gives 400 "No file uploaded.". A file the filter or size limit refuses, or a host failure, gives 500. Success happens only for an admitted file within the limit, and answers the host's URL with the classified type |
| Posts.CreatePost | server/routes/posts.js:43-57 | Refused with 400 "Text is required" exactly when the text is missing or all white space, and then nothing is written. Otherwise exactly one post is added under the new id, with the given text, author and media, no claps or comments, 0 shares, and created now |
| Posts.CreatePostKeepsValid | server/models/Post.js:4-17 | Creating a post keeps every post stored under its own id |
| Posts.ToggleClap | server/routes/posts.js:79-83 | The user's clap flips: present becomes absent and absent becomes present. If present, every one of the user's claps is removed. If absent, exactly one is put in front. Other users' claps keep their order. At most one clap per user is preserved |
| Posts.ClapTwice | server/routes/posts.js:79-83 | Two claps restore the user's membership and everyone else's claps. When the user had not clapped, they restore the whole list |
| Posts.ClapMembership | server/routes/posts.js:79-83 | Another user's clap is present after the toggle exactly when it was before |
| Posts.ClapPost | server/routes/posts.js:73-87 | A missing post gives 404 "Post not found" and nothing changes. Otherwise only that post's claps change and the new list is answered. A user who had clapped loses all their claps, and the others keep their order. A user who had not clapped gets exactly one clap put in front of the old list |
| Posts.CommentOnPost | server/routes/posts.js:93-103 | Succeeds exactly when the user and post exist and the text is non-empty. The comment, with the user's current name, goes in front of the existing comments in their order. Every failure is 500 with nothing written |
| Posts.SharePost | server/routes/posts.js:109-122 | A missing post gives 404. Otherwise the count becomes the old count plus 1, with an unset count read as 0 |
| Posts.SharesAccumulate | server/routes/posts.js:115 | `n` shares raise the count by exactly `n`, with no per-user guard, and leave every other post untouched |
| MediaModal.Next | client/src/components/MediaModal.jsx:8-10 | From a valid index, the next index is in range and is `i + 1`, wrapping from the last item to 0 |
| MediaModal.Prev | client/src/components/MediaModal.jsx:12-14 | From a valid index, the previous index is in range and is `i - 1`, wrapping from 0 to the last item |
| MediaModal.StepsAreModular | client/src/components/MediaModal.jsx:8-14 | On valid indices the moves are `(i + 1) mod n` and `(i - 1 + n) mod n` |
| MediaModal.NextPrevInverse | client/src/components/MediaModal.jsx:8-14 | Next then previous, or previous then next, returns to the same index |
| MediaModal.FullCycle | client/src/components/MediaModal.jsx:8-10 | `n` presses of next return to the start |
| MediaModal.SingleItemFixed | client/src/components/MediaModal.jsx:8-14 | With one item both moves stay put |
| MediaModal.ShowControls | client/src/components/MediaModal.jsx:39 | The arrows appear exactly for two or more URLs |
| MediaModal.RenderKind | client/src/components/MediaModal.jsx:16-30 | "document" and "pdf" render as a frame. "image", "video" and "audio" each get their own element. Every other or missing type is unsupported |
| MediaModal.UploadedMediaRenders | client/src/components/MediaModal.jsx:16-30 | Every type the upload route can assign has a supported rendering, and "pdf" renders as a frame |
| Profiles.GetProfile | server/routes/profiles.js:8-17 | A missing user gives 404 "Profile not found". Otherwise every field of the stored profile except the password: id, name, email, bio, URL, skills, wallet, creation time, connections and requests |
| Profiles.ProfileHidesPassword | server/routes/profiles.js:10 | The answer does not depend on the stored password |
| Profiles.Interact | server/routes/profiles.js:21-37 | The checks run in this order: 404 for a missing recipient; 500 for a missing sender; 400 for oneself; 400 when already connected; 400 when a request is pending. Success happens exactly when none applies, and puts exactly one request from the sender in front of the recipient's requests. Every failure writes nothing |
| Profiles.InteractFrame | server/routes/profiles.js:31 | A request changes only the recipient and keeps the store valid. The recipient's earlier requests keep their order behind the new one |
| Profiles.Accept | server/routes/profiles.js:41-58 | 404 for a missing sender and 500 for a missing current user, with nothing written. Otherwise no pending request or earlier connection is needed. The current user drops every request from the sender and gets the sender in front of its connections. The sender gets the current user in front of its own. No other field and no other user changes. Success happens exactly for two distinct existing users, and answers the current user's new connections. Accepting oneself answers 500 after the first save |
| Profiles.AcceptLinksBoth | server/routes/profiles.js:48-50 | After accepting, each user is in the other's connections and no request from the sender is pending. Nobody else changes, and the store stays valid |
| Profiles.InteractThenAccept | server/routes/profiles.js:21-58 | A request followed by its acceptance links the pair and leaves the recipient's pending requests as they were before |
| Profiles.AcceptBlocksInteract | server/routes/profiles.js:28 | After accepting, a request either way is refused as "already connected" |
| Profiles.SelfAccept | server/routes/profiles.js:43-56 | Accepting oneself answers 500 "Server Error", because the second save is stale. The first save stays: one is among one's own connections, one's own requests are gone, and the store stays valid |
| Profile.GetMe | server/routes/profile.js:10-22 | A missing user gives 404 "User not found". Otherwise every field of the user except the password |
| Profile.MeHidesPassword | server/routes/profile.js:13 | What `/me` sends does not depend on the stored password |
| Profile.BuildFields | server/routes/profile.js:30-38 | Name, bio, LinkedIn URL and wallet address are picked exactly when non-empty, and unchanged. A skills array is kept as sent. A non-empty skills string is split and trimmed |
| Profile.SplitSkills | server/routes/profile.js:37 | One piece per comma-separated piece, empty pieces kept. Piece `i` is the `i`-th comma-separated piece trimmed, and has no comma |
| Profile.SplitSkillsRoundTrip | server/routes/profile.js:37 | Trimmed, comma-free pieces joined with commas split back into themselves |
| Profile.SetFields | server/routes/profile.js:48-51 | Each picked field replaces the stored one, and every other field is unchanged |
| Profile.UpdateProfile | server/routes/profile.js:27-59 | A missing user gives 404 and nothing is written. Otherwise only that user changes, by the picked fields, and the answer is the updated profile |
| Profile.UpdateWritesOnlyWhitelist | server/routes/profile.js:28-51 | Id, email, password, creation time, connections and requests are never written. A field left empty keeps its stored value. Other users are untouched, and the store stays valid |
| Profile.UpdateIdempotent | server/routes/profile.js:48-51 | Sending the same update twice equals sending it once |
| ProfilePage.InteractButton | client/src/components/ProfilePage.jsx:45-63 | Hidden exactly on one's own page. Otherwise disabled exactly when connected or requested. The caption is "Connected", else "Request Sent", else "Interact" |
| ProfilePage.ButtonAgreesWithServer | client/src/components/ProfilePage.jsx:61-63 | With both profiles loaded, the button is enabled exactly when the server accepts the request. It is hidden exactly when the server refuses a self-request, and each disabled caption matches the server's refusal |
| Dashboard.ParseSkills | client/src/components/Dashboard.jsx:56 | No more skills than comma-separated pieces. Every parsed skill is non-empty, trimmed and comma-free. When no piece trims to nothing, the parse is every trimmed piece in order |
| Dashboard.ParseSkillsMembers | client/src/components/Dashboard.jsx:56 | A string is a parsed skill exactly when it is non-empty and one of the trimmed pieces |
| Dashboard.ParseSkillsPiece | client/src/components/Dashboard.jsx:56 | A string without a comma parses to its trimmed self, or to nothing when it is all white space |
| Dashboard.ParseSkillsCons | client/src/components/Dashboard.jsx:56 | The parse of `p,rest` is the parse of `p` followed by the parse of `rest`. With `ParseSkillsPiece` this fixes the parse of every string: the non-empty trimmed pieces, in order, repeats kept |
| Dashboard.KeptPieces | client/src/components/Dashboard.jsx:56 | Of comma-free pieces, the non-empty trimmed ones are well formed, and all are kept when none trims to nothing |
| Dashboard.ParseJoinRoundTrip | client/src/components/Dashboard.jsx:56 | Well-formed skills joined with ", " parse back into the same list |
| Dashboard.ParseIdempotent | client/src/components/Dashboard.jsx:56 | Parsing, joining and parsing again gives the first parse |
| Dashboard.SubmitBody | client/src/components/Dashboard.jsx:52-57 | The body carries the three text fields as typed and the parsed skills as an array. No wallet address is sent |
| Dashboard.CancelEdit | client/src/components/Dashboard.jsx:79-87 | The form is reset to the stored name, bio and URL |
| Dashboard.CancelRestoresSkills | client/src/components/Dashboard.jsx:84 | The reset skills text parses back to the stored skills when they are well formed |
| Dashboard.SubmitAfterCancelIsNoOp | client/src/components/Dashboard.jsx:79-87 | Submitting a just-reset form writes nothing new to the store |
| Dashboard.ExtractSkills | client/src/components/Dashboard.jsx:68-77 | Does nothing exactly when the bio is empty. Otherwise the kept keywords, joined with ", ", become the skills text |
| Dashboard.ExtractionKeepsExactly | client/src/components/Dashboard.jsx:74-75 | A keyword is kept exactly when it is not a stop word and is longer than one character. The filter keeps relative order |
| Dashboard.MergeSkills | client/src/components/Dashboard.jsx:101-104 | The result has no duplicates. It starts with the form's skills deduplicated in their order, contains every existing and every incoming skill, and nothing else. Skills appear in the order of their first occurrence in the existing then the incoming skills |
| Dashboard.MergeIsOneSet | client/src/components/Dashboard.jsx:101-102 | The merge is one insertion-ordered set built from the existing and then the incoming skills |
| Dashboard.MergeResume | client/src/components/Dashboard.jsx:104 | Name, bio and URL are left as typed. Only the skills text changes |
| Dashboard.MergeResumeParses | client/src/components/Dashboard.jsx:101-104 | With well-formed resume skills, the merged text parses back to the merge itself |
| Dashboard.MergedWellFormed | client/src/components/Dashboard.jsx:101-102 | Merging well-formed skills gives well-formed skills |
| JobApplications.SetStatus | client/src/components/JobApplications.jsx:44-46 | Same length. Exactly the applicants with the given user take the new status, and all others are unchanged |
| JobApplications.HandleUpdateStatus | client/src/components/JobApplications.jsx:32-50 | A failed request leaves the list alone and shows the server's message or the default error. A successful one applies the update. Its message is the accepted text exactly for `Accepted` and the declined text otherwise |
| JobApplications.ActionsOrBadge | client/src/components/JobApplications.jsx:79-86 | No applicant shows both. A pending applicant offers actions exactly when its user resolves, and shows no badge. A decided one shows the badge and no actions |
| JobApplications.DecisionClosesActions | client/src/components/JobApplications.jsx:79-86 | After a decision, the decided applicants show the badge and no longer offer actions. Everyone else is unchanged |
| JobApplications.SetStatusIdempotent | client/src/components/JobApplications.jsx:44-46 | Repeating a decision changes nothing more |
| JobApplications.SetStatusAbsent | client/src/components/JobApplications.jsx:44-46 | A decision about an applicant not in the list changes nothing |
| Feed.AddPost | client/src/components/Feed.jsx:28 | The new post is first, and the old posts follow in their order |
| Feed.ReplacePost | client/src/components/Feed.jsx:29 | Same length. Every post with the id becomes the new version, and all others are unchanged |
| Feed.ReplaceAbsent | client/src/components/Feed.jsx:29 | An id not in the feed leaves it unchanged |
| Feed.ReplaceIdempotent | client/src/components/Feed.jsx:29 | Replacing twice equals replacing once |
| Feed.ReplaceShowsUpdate | client/src/components/Feed.jsx:29 | Once a post is in the feed, replacing it shows the new version and leaves no stale copy with that id |
| Feed.AddThenReplace | client/src/components/Feed.jsx:28-29 | A post added and then edited appears edited on top, over the rest replaced likewise |
| Recommendations.Recommend | server/routes/recommendations.js:10-29 | Empty for a missing user or one without skills. Never more than five jobs |
| Recommendations.RecommendSound | server/routes/recommendations.js:19-22 | Every recommendation is a stored job that shares a skill exactly with the user and is not the user's own, and the list runs newest first |
| Recommendations.RecommendKeepsNewest | server/routes/recommendations.js:21-22 | With at most five eligible jobs, all are returned. With more, exactly five are returned. An eligible job left out is no newer than any returned one. No job is returned more often than it is eligible |
| Recommendations.OwnJobsNeverRecommended | server/routes/recommendations.js:19 | A job the user owns is never recommended |
| Jobs.CreateJob | server/routes/jobs.js:9-26 | Created exactly when title and description are non-empty and a budget is given. The new job has the new id, the authenticated user as owner, the given title, description, budget and skills, the current time and no applicants, and is appended. Otherwise 500 with nothing written |
| Jobs.OwnerNotFromBody | server/routes/jobs.js:12-18 | An owner claimed in the body makes no difference |
| Jobs.ListJobs | server/routes/jobs.js:31-44 | Newest first. No job is listed more often than it is stored. Without a filter, every stored job exactly as often as it is stored |
| Jobs.ListJobsCounts | server/routes/jobs.js:33-38 | With a filter, a matching job is listed exactly as often as it is stored, and a job that does not match is not listed |
| Jobs.ListJobsMembers | server/routes/jobs.js:33-38 | With a filter, a job is listed exactly when it is stored and one of its skills contains the filter regardless of case. Without one, exactly when it is stored |
| Jobs.FilterIgnoresCase | server/routes/jobs.js:36 | A filter and its lower-case form list the same jobs |
| Jobs.CreatedJobListed | server/routes/jobs.js:9-44 | A job just created appears in the unfiltered feed |
| JobModel.ParseStatus | server/models/Job.js:27 | Only the four enum names are accepted, each as the status it names |
| JobModel.StatusRoundTrip | server/models/Job.js:27 | Every status is read back from its name, and the validator accepts exactly the four names |
| JobModel.NewApplicant | server/models/Job.js:25-30 | A new application is `Pending`, applied now, for the given user and resume |
| JobModel.NewJob | server/models/Job.js:4-35 | Valid exactly when title and description are non-empty and a budget is given. Skills default to the empty array, with no applicants |
| PostModel.NewPost | server/models/Post.js:4-17 | Valid exactly when the text is non-empty. No claps, no comments, 0 shares |
| PostModel.NewComment | server/models/Post.js:10-15 | Valid exactly when the text is non-empty. It carries the name snapshot and is stamped now |
| UserModel.NewUser | server/models/User.js:4-26 | Valid exactly when name, email and password are non-empty. Bio, URL and wallet default to "", and skills, connections and requests to empty |
| UserModel.InsertUser | server/models/User.js:12 | Refused exactly when the email is taken. Otherwise one user is added, the others are kept, and emails stay unique |
| UserModel.ViewDropsOnlyPassword | server/routes/profile.js:13 | Two users have the same password-less view exactly when they differ at most in the password |

## Left out

- **HTTP and auth.** Express routing, the auth middleware, JWT, axios and `localStorage` are left out. The authenticated user's id is a parameter of each route.
- **`populate`.** The `populate` calls only replace ids with names in the answer, so they are not modelled.
- **Listing posts.** `GET /api/posts` (server/routes/posts.js:62-67) only lists posts and is not modelled.
- **The media host.** Cloudinary is a parameter (`Posts.HostAnswer`): its URL and reported resource type, or a failure.
- **Keyword extraction.** The keyword extractor is not modelled. `Dashboard.ExtractSkills` takes its output as input.
- **Resume parsing.** The resume-parsing route and its PDF library are not part of this model. `Dashboard.MergeResume` takes the returned skills as input.
- **Concurrency.** There are no races. Each handler is atomic, including the two saves in accept (server/routes/profiles.js:52-53) and clap's read-modify-write.
- **Document versions.** Mongoose's version key is not modelled as a field. Only its effect on accepting oneself is: the two loaded copies share one version, the first save bumps it, and the second save fails. `Profiles.Accept` answers that case with 500 after the first save.
- **Time.** Dates are integers. The clock is a parameter, and so are the debounce timer in JobsFeed.jsx and the toast timer in PostStatusMessage.jsx.
- **Rendering.** Styling and rendering are not modelled (Navbar, Register, ApplyModal, CreatePost, Post.jsx, RecommendedJobs.jsx, MyApplications.jsx). `MediaModal.RenderKind` says which element is chosen, not how it looks.
- **Blockchain.** The payment flow in CreateJob.jsx and the smart-contract scripts are wallet calls. The skills split in CreateJob.jsx is the same expression as the dashboard's and is covered by `Dashboard.ParseSkills` with `Dashboard.ParseSkillsPiece` and `Dashboard.ParseSkillsCons`.
- **Notifications.jsx.** Its client-side filter after accepting repeats what `Profiles.Accept` already states.
- **Applicant list loading.** The jobs-by-owner and applications endpoints that the client components call are not part of this model. The status request's outcome is a parameter (`JobApplications.PutOutcome`).
- **Malformed ids.** Ids are natural numbers, so the `ObjectId` cast failure that profiles.js:14 answers with 404 cannot arise.
- **Request value types.** Body values are strings or absent. A non-string `text` (whose `trim` would throw before the `try`), a non-number `budget`, and skills of any other type are not modelled.
- **The User schema.** `connections` and `connectionRequests` are not declared in server/models/User.js. They are modelled as the routes use them, as ordinary fields. With the schema as written, Mongoose gives no accessor for an undeclared path, so `sender.connections` and `currentUser.connectionRequests` read `undefined`, so the handlers throw at server/routes/profiles.js:28 and :48 and answer 500. `Profiles.Interact` and `Profiles.Accept` model the routes as if the two fields were declared arrays.
- **Required arrays.** `required` on the Job `skills` array is read with current Mongoose semantics: an empty array passes, and a missing one defaults to empty.
- **Sort ties.** Jobs with equal `createdAt` keep their collection order under the newest-first sort. The database guarantees no order among ties.
- **A failed profile load.** On the profile page, a current profile that fails to load is `None`.
- JobsFeed.MatchScore: rounds the exact ratio. The source computes `(i / j) * 100` in binary floating point, which can land just below a half. For 57 of 200 skills that product is 28.499999999999996, so the page shows 28 where the model gives 29.
- Text.Lower: folds only the ASCII letters. `toLowerCase` also maps other Unicode letters, so non-ASCII skills may normalise differently.
- Dashboard.KeepKeyword: measures a keyword in code points. `kw.length` counts UTF-16 units, which differs only for characters outside the Basic Multilingual Plane.
- Jobs.SkillMatches: treats the filter as literal text. The source compiles it as a regular expression, so filters containing pattern characters are not modelled.
- MediaModal.Next: requires at least one item. With none, the source computes a remainder by zero (`NaN`), which is not modelled.
- Posts.UploadMedia: answers 500 for any refusal by the upload middleware. This relies on Express's default error handler, which is not part of this model.

=== FILE: dashboard.dfy ===
/** The skills field of the dashboard's profile form
    (client/src/components/Dashboard.jsx). The form holds skills as one
    comma-separated string; it is parsed on submit, filled from extracted
    keywords, merged with skills read from a resume, and reset from the
    stored profile on cancel. */
module Dashboard {
  import opened Wrappers
  import opened Text
  import opened Seqs
  import opened UserModel
  import Profile

  datatype FormData = FormData(name: string, bio: string, linkedinURL: string, skills: string)

  /** A skill as the parser leaves it: not empty, trimmed, free of commas. */
  predicate WellFormedSkill(s: string) {
    s != "" && IsTrimmed(s) && ',' !in s
  }

  /** What `filter(Boolean)` keeps of a string. */
  predicate NonEmpty(x: string) {
    x != ""
  }

  /** `skills.split(',').map(s => s.trim()).filter(Boolean)`: the trimmed
      comma-separated pieces that are not empty, in their order. Every
      parsed skill is well formed, and when no piece trims to nothing, every
      piece is kept. */
  function ParseSkills(s: string): (r: seq<string>)
    ensures |r| <= |Split(s, ',')|
    ensures forall x :: x in r ==> WellFormedSkill(x)
    ensures (forall i :: 0 <= i < |Split(s, ',')| ==> Trim(Split(s, ',')[i]) != "") ==>
              r == TrimAll(Split(s, ','))
  {
    KeptPieces(Split(s, ','));
    Filter(TrimAll(Split(s, ',')), NonEmpty)
  }

  /** A parsed skill is exactly a trimmed piece that is not empty. */
  lemma ParseSkillsMembers(s: string)
    ensures forall x :: x in ParseSkills(s) <==> x != "" && x in TrimAll(Split(s, ','))
  {
    KeptPiecesMembers(Split(s, ','));
  }

  /** A string without a comma parses to its trimmed self, or to nothing
      when it is all white space. */
  lemma ParseSkillsPiece(p: string)
    requires ',' !in p
    ensures ParseSkills(p) == (if Trim(p) == "" then [] else [Trim(p)])
  {
    SplitNone(p, ',');
    assert TrimAll([p]) == [Trim(p)];
  }

  /** The first comma cuts the parse in two: the pieces before it parse on
      their own, in front of the parse of the rest. With `ParseSkillsPiece`
      this fixes the parse of every string, order and repeats included. */
  lemma ParseSkillsCons(p: string, rest: string)
    requires ',' !in p
    ensures ParseSkills(p + "," + rest) == ParseSkills(p) + ParseSkills(rest)
  {
    var tail := Split(rest, ',');
    SplitCons(p, rest, ',');
    SplitNone(p, ',');
    TrimAllCons(p, tail);
    FilterAppend([Trim(p)], TrimAll(tail), NonEmpty);
    assert TrimAll([p]) == [Trim(p)];
  }

  /** The non-empty trimmed pieces of comma-free pieces are well formed. */
  lemma KeptPieces(pieces: seq<string>)
    requires forall i :: 0 <= i < |pieces| ==> ',' !in pieces[i]
    ensures forall x :: x in Filter(TrimAll(pieces), NonEmpty) ==> WellFormedSkill(x)
    ensures (forall i :: 0 <= i < |pieces| ==> Trim(pieces[i]) != "") ==>
              Filter(TrimAll(pieces), NonEmpty) == TrimAll(pieces)
  {
    KeptPiecesWellFormed(pieces);
    KeptPiecesAll(pieces);
  }

  lemma KeptPiecesMembers(pieces: seq<string>)
    ensures forall x :: x in Filter(TrimAll(pieces), NonEmpty) <==> x != "" && x in TrimAll(pieces)
  {
    FilterMembers(TrimAll(pieces), NonEmpty);
  }

  lemma KeptPiecesWellFormed(pieces: seq<string>)
    requires forall i :: 0 <= i < |pieces| ==> ',' !in pieces[i]
    ensures forall x :: x in Filter(TrimAll(pieces), NonEmpty) ==> WellFormedSkill(x)
  {
    var t := TrimAll(pieces);
    KeptPiecesMembers(pieces);
    TrimmedPiecesCommaFree(pieces);
    forall x | x in Filter(t, NonEmpty) ensures WellFormedSkill(x) {
      var i :| 0 <= i < |t| && t[i] == x;
    }
  }

  lemma KeptPiecesAll(pieces: seq<string>)
    ensures (forall i :: 0 <= i < |pieces| ==> Trim(pieces[i]) != "") ==>
              Filter(TrimAll(pieces), NonEmpty) == TrimAll(pieces)
  {
    if forall i :: 0 <= i < |pieces| ==> Trim(pieces[i]) != "" {
      FilterAll(TrimAll(pieces), NonEmpty);
    }
  }

  lemma TrimmedPiecesCommaFree(pieces: seq<string>)
    requires forall i :: 0 <= i < |pieces| ==> ',' !in pieces[i]
    ensures forall i :: 0 <= i < |pieces| ==> ',' !in TrimAll(pieces)[i]
  {
    forall i | 0 <= i < |pieces| ensures ',' !in TrimAll(pieces)[i] {
      Profile.TrimInside(pieces[i], ',');
    }
  }

  /** A first character other than the separator starts the first piece. */
  lemma SplitCons1(c: char, y: string, d: char)
    requires c != d
    ensures Split([c] + y, d) == [[c] + Split(y, d)[0]] + Split(y, d)[1..]
  {
    assert ([c] + y)[1..] == y;
  }

  lemma TrimAllCons(p: string, rest: seq<string>)
    ensures TrimAll([p] + rest) == [Trim(p)] + TrimAll(rest)
  {
  }

  /** A leading space is trimmed away from the first piece. */
  lemma SplitAfterSpace(c: char, y: string, d: char)
    requires IsSpace(c) && c != d
    ensures TrimAll(Split([c] + y, d)) == TrimAll(Split(y, d))
  {
    var b := Split(y, d);
    SplitCons1(c, y, d);
    TrimAllCons([c] + b[0], b[1..]);
    TrimAllCons(b[0], b[1..]);
    TrimSkipsLeadingSpace(c, b[0]);
    assert [b[0]] + b[1..] == b;
  }

  lemma TrimAllHead(xs: seq<string>)
    requires |xs| >= 1
    ensures TrimAll(xs) == [Trim(xs[0])] + TrimAll(xs[1..])
  {
    var a, b := TrimAll(xs), [Trim(xs[0])] + TrimAll(xs[1..]);
    forall i | 0 <= i < |a| ensures a[i] == b[i] {
      if i > 0 {
        assert xs[1..][i - 1] == xs[i];
      }
    }
  }

  lemma JoinCons(xs: seq<string>, d: char, c: char)
    requires |xs| >= 2
    ensures Join(xs, [d, c]) == xs[0] + [d] + ([c] + Join(xs[1..], [d, c]))
  {
    var x, y := xs[0], Join(xs[1..], [d, c]);
    assert Join(xs, [d, c]) == x + [d, c] + y;
    assert x + [d, c] + y == x + [d] + ([c] + y) by {
      assert [d, c] == [d] + [c];
    }
  }

  lemma {:induction false} SplitJoinedSkills(xs: seq<string>, d: char, c: char)
    requires |xs| >= 1 && IsSpace(c) && c != d
    requires forall i :: 0 <= i < |xs| ==> d !in xs[i]
    ensures TrimAll(Split(Join(xs, [d, c]), d)) == TrimAll(xs)
  {
    if |xs| == 1 {
      SplitNone(xs[0], d);
    } else {
      var x, rest := xs[0], xs[1..];
      var y := Join(rest, [d, c]);
      SplitJoinedSkills(rest, d, c);
      JoinCons(xs, d, c);
      SplitCons(x, [c] + y, d);
      SplitAfterSpace(c, y, d);
      TrimAllHead(xs);
      TrimAllCons(x, Split([c] + y, d));
    }
  }

  lemma TrimAllTrimmed(xs: seq<string>)
    requires forall i :: 0 <= i < |xs| ==> IsTrimmed(xs[i])
    ensures TrimAll(xs) == xs
  {
    forall i | 0 <= i < |xs| ensures TrimAll(xs)[i] == xs[i] {
      TrimIdentity(xs[i]);
    }
  }

  lemma ParseEmpty()
    ensures ParseSkills("") == []
  {
    assert Split("", ',') == [""];
    assert TrimAll([""]) == [""] by {
      TrimIdentity("");
    }
  }

  /** A list of well-formed skills survives being shown as ", "-joined text
      and parsed back. */
  lemma ParseJoinRoundTrip(xs: seq<string>)
    requires forall i :: 0 <= i < |xs| ==> WellFormedSkill(xs[i])
    ensures ParseSkills(Join(xs, ", ")) == xs
  {
    if xs == [] {
      ParseEmpty();
    } else {
      JoinedPiecesTrim(xs, Split(Join(xs, ", "), ','));
    }
  }

  /** The pieces of well-formed skills joined with ", " trim back to the
      skills, none of them to nothing. */
  lemma JoinedPiecesTrim(xs: seq<string>, pieces: seq<string>)
    requires |xs| >= 1 && pieces == Split(Join(xs, ", "), ',')
    requires forall i :: 0 <= i < |xs| ==> WellFormedSkill(xs[i])
    ensures TrimAll(pieces) == xs
    ensures forall i :: 0 <= i < |pieces| ==> Trim(pieces[i]) != ""
  {
    assert ", " == [',', ' '];
    assert forall i :: 0 <= i < |xs| ==> ',' !in xs[i] && IsTrimmed(xs[i]) && xs[i] != "" by {
      forall i | 0 <= i < |xs| ensures ',' !in xs[i] && IsTrimmed(xs[i]) && xs[i] != "" {
        assert WellFormedSkill(xs[i]);
      }
    }
    SplitJoinedSkills(xs, ',', ' ');
    TrimAllTrimmed(xs);
    NoPieceTrimsEmpty(xs, pieces);
  }

  lemma NoPieceTrimsEmpty(xs: seq<string>, pieces: seq<string>)
    requires TrimAll(pieces) == xs
    requires forall i :: 0 <= i < |xs| ==> xs[i] != ""
    ensures forall i :: 0 <= i < |pieces| ==> Trim(pieces[i]) != ""
  {
    forall i | 0 <= i < |pieces| ensures Trim(pieces[i]) != "" {
      assert TrimAll(pieces)[i] == xs[i];
    }
  }

  /** Parsing, joining and parsing again gives the first parse: the text the
      form would show for the parsed list reads back as the same list. */
  lemma ParseIdempotent(s: string)
    ensures ParseSkills(Join(ParseSkills(s), ", ")) == ParseSkills(s)
  {
    var r := ParseSkills(s);
    assert forall i :: 0 <= i < |r| ==> r[i] in r;
    ParseJoinRoundTrip(r);
  }

  /** The submitted body: the three text fields as typed and the parsed skills
      as an array; the wallet address is not sent. */
  function SubmitBody(form: FormData): (req: Profile.ProfileRequest)
    ensures req.name == Some(form.name) && req.bio == Some(form.bio)
    ensures req.linkedinURL == Some(form.linkedinURL) && req.walletAddress.None?
    ensures req.skills == Some(Profile.SkillsArray(ParseSkills(form.skills)))
  {
    Profile.ProfileRequest(Some(form.name), Some(form.bio), Some(form.linkedinURL),
                           Some(Profile.SkillsArray(ParseSkills(form.skills))), None)
  }

  /** `cancelEdit`: the form is reset to the stored profile, skills joined
      with ", ". */
  function CancelEdit(p: ProfileView): (form: FormData)
    ensures form.name == p.name && form.bio == p.bio && form.linkedinURL == p.linkedinURL
  {
    FormData(p.name, p.bio, p.linkedinURL, Join(p.skills, ", "))
  }

  /** The reset skills text reads back as the stored skills when they are
      well formed. */
  lemma CancelRestoresSkills(p: ProfileView)
    requires forall i :: 0 <= i < |p.skills| ==> WellFormedSkill(p.skills[i])
    ensures ParseSkills(CancelEdit(p).skills) == p.skills
  {
    ParseJoinRoundTrip(p.skills);
  }

  /** Cancelling and then submitting the reset form writes nothing new when
      the stored skills are well formed. */
  lemma SubmitAfterCancelIsNoOp(users: Users, me: UserId)
    requires me in users
    requires forall i :: 0 <= i < |users[me].skills| ==> WellFormedSkill(users[me].skills[i])
    ensures Profile.UpdateProfile(users, me, SubmitBody(CancelEdit(View(users[me])))).state == users
  {
    var u := users[me];
    CancelRestoresSkills(View(u));
    var f := Profile.BuildFields(SubmitBody(CancelEdit(View(u))));
    assert Profile.SetFields(u, f) == u;
    assert users[me := u] == users;
  }

  /** The words the extraction discards, in the order they are listed. */
  const StopWords: seq<string> := [
    "i", "me", "my", "myself", "we", "our", "ours", "ourselves", "you", "your", "yours", "he",
    "him", "his", "she", "her", "it", "its", "they", "them", "their", "what", "which", "who",
    "whom", "this", "that", "these", "those", "am", "is", "are", "was", "were", "be", "been",
    "being", "have", "has", "had", "having", "do", "does", "did", "doing", "a", "an", "the",
    "and", "but", "if", "or", "because", "as", "until", "while", "of", "at", "by", "for",
    "with", "about", "from", "in", "out", "on", "off", "over", "under", "again", "further",
    "then", "once", "here", "there", "when", "where", "why", "how", "all", "any", "both",
    "each", "few", "more", "most", "other", "some", "such", "no", "nor", "not", "only", "own",
    "same", "so", "than", "too", "very", "can", "will", "just", "should", "now", "developer",
    "experience", "skilled", "worked"]

  /** A keyword the extraction keeps. */
  predicate KeepKeyword(kw: string) {
    kw !in StopWords && |kw| > 1
  }

  /** `handleSkillExtraction`, given the keywords the extractor found in the
      bio: nothing happens for an empty bio; otherwise the kept keywords,
      joined with ", ", replace the skills text. */
  function ExtractSkills(form: FormData, keywords: seq<string>): (r: Option<FormData>)
    ensures r.None? <==> form.bio == ""
    ensures r.Some? ==> r.value == form.(skills := Join(Filter(keywords, KeepKeyword), ", "))
  {
    if form.bio == "" then None
    else Some(form.(skills := Join(Filter(keywords, KeepKeyword), ", ")))
  }

  /** The kept keywords are exactly the ones that are neither stop words nor
      a single character, in their original order. */
  lemma ExtractionKeepsExactly(keywords: seq<string>, more: seq<string>)
    ensures forall k :: k in Filter(keywords, KeepKeyword) <==> k in keywords && k !in StopWords && |k| > 1
    ensures Filter(keywords + more, KeepKeyword) == Filter(keywords, KeepKeyword) + Filter(more, KeepKeyword)
  {
    FilterMembers(keywords, KeepKeyword);
    FilterAppend(keywords, more, KeepKeyword);
  }

  /** The resume merge: the form's parsed skills, duplicates dropped, then
      each skill from the resume that is not already there, in arrival order. */
  function MergeSkills(existing: seq<string>, incoming: seq<string>): (r: seq<string>)
    ensures Distinct(r)
    ensures |AddAll([], existing)| <= |r| && r[..|AddAll([], existing)|] == AddAll([], existing)
    ensures forall i :: 0 <= i < |existing| ==> existing[i] in r
    ensures forall i :: 0 <= i < |incoming| ==> incoming[i] in r
    ensures forall i :: 0 <= i < |r| ==> r[i] in existing || r[i] in incoming
    ensures forall i, j :: 0 <= i < j < |r| ==>
              FirstIndex(existing + incoming, r[i]) < FirstIndex(existing + incoming, r[j])
  {
    var seen := AddAll([], existing);
    var r := AddAll(seen, incoming);
    AddAllAppend([], existing, incoming);
    AddAllFirstOccurrence(existing + incoming);
    assert forall i :: 0 <= i < |existing| ==> existing[i] in r by {
      forall i | 0 <= i < |existing| ensures existing[i] in r {
        var j :| 0 <= j < |seen| && seen[j] == existing[i];
        assert r[j] == seen[j];
      }
    }
    assert forall i :: 0 <= i < |r| ==> r[i] in existing || r[i] in incoming by {
      forall i | 0 <= i < |r| ensures r[i] in existing || r[i] in incoming {
        if r[i] in seen {
          var j :| 0 <= j < |seen| && seen[j] == r[i];
          assert seen[j] in existing;
        }
      }
    }
    r
  }

  /** Merging is adding the existing and then the incoming skills to one
      insertion-ordered set. */
  lemma MergeIsOneSet(existing: seq<string>, incoming: seq<string>)
    ensures MergeSkills(existing, incoming) == AddAll([], existing + incoming)
  {
    AddAllAppend([], existing, incoming);
  }

  /** `handleResumeUpload` once the resume's skills have arrived. */
  function MergeResume(form: FormData, incoming: seq<string>): (r: FormData)
    ensures r.name == form.name && r.bio == form.bio && r.linkedinURL == form.linkedinURL
  {
    form.(skills := Join(MergeSkills(ParseSkills(form.skills), incoming), ", "))
  }

  /** A resume with well-formed skills lands in the form: parsing the merged
      text gives the merge itself. */
  lemma MergeResumeParses(form: FormData, incoming: seq<string>)
    requires forall i :: 0 <= i < |incoming| ==> WellFormedSkill(incoming[i])
    ensures ParseSkills(MergeResume(form, incoming).skills) == MergeSkills(ParseSkills(form.skills), incoming)
  {
    var parsed := ParseSkills(form.skills);
    MergedWellFormed(parsed, incoming);
    ParseJoinRoundTrip(MergeSkills(parsed, incoming));
  }

  /** Merging well-formed skills gives well-formed skills. */
  lemma MergedWellFormed(existing: seq<string>, incoming: seq<string>)
    requires forall x :: x in existing ==> WellFormedSkill(x)
    requires forall i :: 0 <= i < |incoming| ==> WellFormedSkill(incoming[i])
    ensures forall i :: 0 <= i < |MergeSkills(existing, incoming)| ==> WellFormedSkill(MergeSkills(existing, incoming)[i])
  {
    var m := MergeSkills(existing, incoming);
    forall i | 0 <= i < |m| ensures WellFormedSkill(m[i]) {
      if m[i] !in existing {
        var j :| 0 <= j < |incoming| && incoming[j] == m[i];
      }
    }
  }
}

=== FILE: feed.dfy ===
/** The post feed held by the client (client/src/components/Feed.jsx): a new
    post goes on top, and an edited post replaces the one with its id. */
module Feed {
  import opened PostModel

  /** `addPostToFeed`. */
  function AddPost(feed: seq<Post>, p: Post): (r: seq<Post>)
    ensures |r| == |feed| + 1 && r[0] == p
    ensures forall i :: 0 <= i < |feed| ==> r[i + 1] == feed[i]
  {
    [p] + feed
  }

  /** `updatePostInFeed`: every post with the same id becomes `p`. */
  function ReplacePost(feed: seq<Post>, p: Post): (r: seq<Post>)
    ensures |r| == |feed|
    ensures forall i :: 0 <= i < |feed| ==> r[i] == if feed[i].id == p.id then p else feed[i]
  {
    seq(|feed|, i requires 0 <= i < |feed| => if feed[i].id == p.id then p else feed[i])
  }

  /** An id not in the feed leaves it as it was. */
  lemma ReplaceAbsent(feed: seq<Post>, p: Post)
    requires forall i :: 0 <= i < |feed| ==> feed[i].id != p.id
    ensures ReplacePost(feed, p) == feed
  {
  }

  /** Replacing twice with the same post is replacing once. */
  lemma ReplaceIdempotent(feed: seq<Post>, p: Post)
    ensures ReplacePost(ReplacePost(feed, p), p) == ReplacePost(feed, p)
  {
  }

  /** Once a post is in the feed, replacing it makes it visible: the feed
      then holds the new version and no post with that id is stale. */
  lemma ReplaceShowsUpdate(feed: seq<Post>, p: Post)
    requires exists i :: 0 <= i < |feed| && feed[i].id == p.id
    ensures p in ReplacePost(feed, p)
    ensures forall q :: q in ReplacePost(feed, p) && q.id == p.id ==> q == p
  {
    var i :| 0 <= i < |feed| && feed[i].id == p.id;
    assert ReplacePost(feed, p)[i] == p;
  }

  /** A post just added and then edited appears, edited, on top. */
  lemma AddThenReplace(feed: seq<Post>, p: Post, edited: Post)
    requires edited.id == p.id
    ensures ReplacePost(AddPost(feed, p), edited)[0] == edited
    ensures ReplacePost(AddPost(feed, p), edited)[1..] == ReplacePost(feed, edited)
  {
  }
}

=== FILE: job_applications.dfy ===
/** The owner's applicant list for one job
    (client/src/components/JobApplications.jsx): accepting or declining an
    applicant, and which applicants offer those actions. The status request
    to the server is a parameter: it either succeeds or fails with an
    optional message. */
module JobApplications {
  import opened Wrappers
  import opened UserModel
  import opened JobModel

  /** How the status request ended. */
  datatype PutOutcome = PutOk | PutFailed(serverMsg: Option<string>)

  datatype MessageKind = Success | Failure

  /** The list on screen and the status message above it. */
  datatype Panel = Panel(applicants: seq<Applicant>, message: string, kind: MessageKind)

  const AcceptedText := "Accepted application. We would like to move forward."
  const DeclinedText := "Declined application. Better luck next time."
  const FailureText := "Error updating status."

  /** The local update: every applicant whose user is `applicantId` takes the
      new status; everyone else is left as is. */
  function SetStatus(apps: seq<Applicant>, applicantId: UserId, status: Status): (r: seq<Applicant>)
    ensures |r| == |apps|
    ensures forall i :: 0 <= i < |apps| ==>
              r[i] == if apps[i].user == Some(applicantId) then apps[i].(status := status) else apps[i]
  {
    seq(|apps|, i requires 0 <= i < |apps| =>
      if apps[i].user == Some(applicantId) then apps[i].(status := status) else apps[i])
  }

  /** `handleUpdateStatus`: the list changes only once the request has
      succeeded; the success message depends only on whether the status is
      `Accepted`, and a failure shows the server's message when it sent a
      non-empty one. */
  function HandleUpdateStatus(p: Panel, applicantId: UserId, status: Status, outcome: PutOutcome): (r: Panel)
    ensures outcome.PutFailed? ==> r.applicants == p.applicants && r.kind == Failure
    ensures outcome.PutFailed? ==>
              r.message == if Present(outcome.serverMsg) then outcome.serverMsg.value else FailureText
    ensures outcome.PutOk? ==> && r.applicants == SetStatus(p.applicants, applicantId, status)
                               && r.kind == Success
                               && (r.message == AcceptedText <==> status == Accepted)
                               && (r.message == DeclinedText <==> status != Accepted)
  {
    match outcome
    case PutOk =>
      Panel(SetStatus(p.applicants, applicantId, status),
            if status == Accepted then AcceptedText else DeclinedText, Success)
    case PutFailed(m) =>
      Panel(p.applicants, if Present(m) then m.value else FailureText, Failure)
  }

  /** Accept and Decline are offered only for a pending applicant whose user
      still resolves. */
  predicate ShowActions(a: Applicant) {
    a.status == Pending && a.user.Some?
  }

  /** The status badge is shown for every applicant no longer pending. */
  predicate ShowBadge(a: Applicant) {
    a.status != Pending
  }

  /** Every applicant shows at most one of the two: a pending one with a
      user offers the actions, a decided one shows its badge, and a pending
      one whose user is gone shows neither. */
  lemma ActionsOrBadge(a: Applicant)
    ensures !(ShowActions(a) && ShowBadge(a))
    ensures a.status == Pending ==> (ShowActions(a) <==> a.user.Some?) && !ShowBadge(a)
    ensures a.status != Pending ==> ShowBadge(a) && !ShowActions(a)
  {
  }

  /** After a successful decision, the decided applicants show the badge and
      no longer offer actions; the rest keep what they showed, and the
      number of applicants is unchanged. */
  lemma DecisionClosesActions(p: Panel, applicantId: UserId, status: Status)
    requires status != Pending
    ensures var r := HandleUpdateStatus(p, applicantId, status, PutOk).applicants;
            && |r| == |p.applicants|
            && (forall i :: 0 <= i < |r| && p.applicants[i].user == Some(applicantId) ==>
                  !ShowActions(r[i]) && ShowBadge(r[i]) && r[i].status == status)
            && (forall i :: 0 <= i < |r| && p.applicants[i].user != Some(applicantId) ==>
                  r[i] == p.applicants[i])
  {
  }

  /** Repeating the same decision changes nothing more. */
  lemma SetStatusIdempotent(apps: seq<Applicant>, applicantId: UserId, status: Status)
    ensures SetStatus(SetStatus(apps, applicantId, status), applicantId, status)
              == SetStatus(apps, applicantId, status)
  {
  }

  /** A decision about someone not in the list changes nothing. */
  lemma SetStatusAbsent(apps: seq<Applicant>, applicantId: UserId, status: Status)
    requires forall i :: 0 <= i < |apps| ==> apps[i].user != Some(applicantId)
    ensures SetStatus(apps, applicantId, status) == apps
  {
  }
}

=== FILE: job_model.dfy ===
/** The `Job` document and its embedded applicants (server/models/Job.js). */
module JobModel {
  import opened Wrappers
  import opened UserModel

  type JobId = nat

  /** The `status` enum of an applicant. */
  datatype Status = Pending | Reviewed | Accepted | Rejected

  function StatusName(s: Status): string {
    match s
    case Pending => "Pending"
    case Reviewed => "Reviewed"
    case Accepted => "Accepted"
    case Rejected => "Rejected"
  }

  /** The enum validator: a status string is accepted only when it names one
      of the four values. */
  function ParseStatus(t: string): (r: Option<Status>)
    ensures r.Some? ==> StatusName(r.value) == t
  {
    if t == "Pending" then Some(Pending)
    else if t == "Reviewed" then Some(Reviewed)
    else if t == "Accepted" then Some(Accepted)
    else if t == "Rejected" then Some(Rejected)
    else None
  }

  /** Every status survives being written as its name and read back, and
      the validator accepts nothing else. */
  lemma StatusRoundTrip(s: Status, t: string)
    ensures ParseStatus(StatusName(s)) == Some(s)
    ensures ParseStatus(t).Some? <==> exists s' :: StatusName(s') == t
  {
    if exists s' :: StatusName(s') == t {
      var s' :| StatusName(s') == t;
      assert ParseStatus(t) == Some(s');
    }
  }

  /** An embedded application; `user` is `null` once the applicant's account
      no longer resolves. */
  datatype Applicant = Applicant(
    id: nat,
    user: Option<UserId>,
    status: Status,
    appliedAt: int,
    resumeUrl: Option<string>)

  /** A new application takes the schema defaults: status `Pending`,
      `appliedAt` now. */
  function NewApplicant(id: nat, user: UserId, resumeUrl: Option<string>, now: int): (a: Applicant)
    ensures a.status == Pending
    ensures a.user == Some(user) && a.appliedAt == now && a.resumeUrl == resumeUrl
  {
    Applicant(id, Some(user), Pending, now, resumeUrl)
  }

  datatype Job = Job(
    id: JobId,
    owner: Option<UserId>,
    title: string,
    description: string,
    skills: seq<string>,
    budget: int,
    applicants: seq<Applicant>,
    createdAt: int)

  /** The sort key of `sort({ createdAt: -1 })`. */
  function CreatedAt(j: Job): int {
    j.createdAt
  }

  /** A new job document. `title` and `description` must be non-empty strings
      and `budget` must be given; `skills` falls back to the empty array an
      array path defaults to. */
  function NewJob(id: JobId, owner: UserId, title: Option<string>, description: Option<string>,
                  skills: Option<seq<string>>, budget: Option<int>, now: int): (r: Result<Job>)
    ensures r.Ok? <==> Present(title) && Present(description) && budget.Some?
    ensures r.Err? ==> r.status == ServerError
    ensures r.Ok? ==> && r.value.id == id && r.value.owner == Some(owner)
                      && r.value.title == title.value && r.value.description == description.value
                      && r.value.budget == budget.value && r.value.createdAt == now
                      && r.value.skills == skills.GetOr([]) && r.value.applicants == []
  {
    if Present(title) && Present(description) && budget.Some? then
      Ok(Job(id, Some(owner), title.value, description.value, skills.GetOr([]), budget.value, [], now))
    else
      Err(ServerError, "Job validation failed")
  }
}

=== FILE: jobs.dfy ===
/** The job routes (server/routes/jobs.js): creating a job, and the job feed
    with its optional skill filter. Jobs are held in collection order; a new
    job is added at the end. */
module Jobs {
  import opened Wrappers
  import opened Text
  import opened Seqs
  import opened UserModel
  import opened JobModel

  /** The body of `POST /api/jobs`. `claimedOwner` is any owner the client
      put in the body; the handler never reads it. */
  datatype JobRequest = JobRequest(
    title: Option<string>,
    description: Option<string>,
    skills: Option<seq<string>>,
    budget: Option<int>,
    claimedOwner: Option<UserId>)

  /** `POST /api/jobs`: a job owned by the authenticated user, or 500 when
      the schema refuses it. */
  function CreateJob(jobs: seq<Job>, newId: JobId, me: UserId, req: JobRequest, now: int): (r: Reply<seq<Job>, Job>)
    ensures r.answer.Ok? <==> Present(req.title) && Present(req.description) && req.budget.Some?
    ensures r.answer.Err? ==> r.answer.status == ServerError && r.state == jobs
    ensures r.answer.Ok? ==> && r.answer.value.owner == Some(me)
                             && r.answer.value.id == newId
                             && r.answer.value.title == req.title.value
                             && r.answer.value.description == req.description.value
                             && r.answer.value.budget == req.budget.value
                             && r.answer.value.createdAt == now
                             && r.answer.value.skills == req.skills.GetOr([])
                             && r.answer.value.applicants == []
                             && r.state == jobs + [r.answer.value]
  {
    match NewJob(newId, me, req.title, req.description, req.skills, req.budget, now)
    case Err(s, m) => Reply(jobs, Err(s, m))
    case Ok(j) => Reply(jobs + [j], Ok(j))
  }

  /** The owner comes from the session alone: two requests that differ only
      in the owner they claim create the same job. */
  lemma OwnerNotFromBody(jobs: seq<Job>, newId: JobId, me: UserId, req: JobRequest, other: Option<UserId>, now: int)
    ensures CreateJob(jobs, newId, me, req, now) == CreateJob(jobs, newId, me, req.(claimedOwner := other), now)
  {
  }

  /** `new RegExp(skill, 'i')` on the skills array, for a filter without
      pattern characters: some skill contains the filter, ignoring the case
      of ASCII letters. */
  predicate SkillMatches(j: Job, skill: string) {
    exists k :: 0 <= k < |j.skills| && Contains(Lower(j.skills[k]), Lower(skill))
  }

  /** A filter is applied only when it is a non-empty string. */
  predicate Filtering(skill: Option<string>) {
    Present(skill)
  }

  /** `GET /api/jobs?skill=…`: the matching jobs (all of them when there is
      no filter), newest first. No stored job is listed more often than it
      is stored. */
  function ListJobs(jobs: seq<Job>, skill: Option<string>): (r: seq<Job>)
    ensures |r| <= |jobs|
    ensures multiset(r) <= multiset(jobs)
    ensures !Filtering(skill) ==> multiset(r) == multiset(jobs)
    ensures SortedDesc(r, CreatedAt)
  {
    if Filtering(skill) then
      var p := (j: Job) => SkillMatches(j, skill.value);
      FilterMembers(jobs, p);
      SortDesc(Filter(jobs, p), CreatedAt)
    else SortDesc(jobs, CreatedAt)
  }

  /** With a filter, each matching job is listed exactly as often as it is
      stored, and a job that does not match is not listed at all. */
  lemma ListJobsCounts(jobs: seq<Job>, skill: string, j: Job)
    requires skill != ""
    ensures multiset(ListJobs(jobs, Some(skill)))[j] ==
              if SkillMatches(j, skill) then multiset(jobs)[j] else 0
  {
    FilterCount(jobs, (j: Job) => SkillMatches(j, skill), j);
  }

  /** With a filter, a job is listed exactly when it is stored and one of its
      skills contains the filter; without one, exactly when it is stored. */
  lemma ListJobsMembers(jobs: seq<Job>, skill: Option<string>)
    ensures forall j :: j in ListJobs(jobs, skill) <==>
              j in jobs && (Filtering(skill) ==> SkillMatches(j, skill.value))
  {
    if Filtering(skill) {
      var p := (j: Job) => SkillMatches(j, skill.value);
      FilterMembers(jobs, p);
      SortDescMembers(Filter(jobs, p), CreatedAt);
    } else {
      SortDescMembers(jobs, CreatedAt);
    }
  }

  /** The filter ignores case: a filter and its lower-case form list the
      same jobs. */
  lemma FilterIgnoresCase(jobs: seq<Job>, skill: string)
    requires skill != ""
    ensures ListJobs(jobs, Some(skill)) == ListJobs(jobs, Some(Lower(skill)))
  {
    LowerIdempotent(skill);
    FilterCongruent(jobs, (j: Job) => SkillMatches(j, skill), (j: Job) => SkillMatches(j, Lower(skill)));
  }

  lemma LowerIdempotent(s: string)
    ensures Lower(Lower(s)) == Lower(s)
  {
  }

  /** A job just created is in the unfiltered feed. */
  lemma CreatedJobListed(jobs: seq<Job>, newId: JobId, me: UserId, req: JobRequest, now: int)
    requires CreateJob(jobs, newId, me, req, now).answer.Ok?
    ensures var r := CreateJob(jobs, newId, me, req, now);
            r.answer.value in ListJobs(r.state, None)
  {
    var r := CreateJob(jobs, newId, me, req, now);
    ListJobsMembers(r.state, None);
    assert r.state[|jobs|] == r.answer.value;
  }
}

=== FILE: jobs_feed.dfy ===
/** The skill-match score and its badge (client/src/components/JobsFeed.jsx).

    Both skill lists are normalised with `toLowerCase().trim()` and turned
    into sets; the score is the share of distinct job skills the user holds,
    as a whole percentage rounded with `Math.round`. The arithmetic is exact:
    `Math.round(100 * i / j)` is `(200 * i + j) / (2 * j)` on integers. */
module JobsFeed {
  import opened Wrappers
  import opened Text

  function Normalize(s: string): string {
    Trim(Lower(s))
  }

  /** `new Set(xs.map(f))`. */
  function Image(xs: seq<string>, f: string -> string): set<string> {
    set x | x in xs :: f(x)
  }

  /** `new Set(xs.map(s => s.toLowerCase().trim()))`. */
  function NormSet(xs: seq<string>): set<string> {
    Image(xs, Normalize)
  }

  /** A skill list that is missing or empty. */
  predicate NoSkills(xs: Option<seq<string>>) {
    xs.None? || |xs.value| == 0
  }

  /** `r` is `num / den` rounded to the nearest whole number, halves up:
      `r - 1/2 <= num / den < r + 1/2`. */
  predicate RoundsHalfUp(num: nat, den: nat, r: nat) {
    2 * den * r <= 2 * num + den < 2 * den * (r + 1)
  }

  /** `Math.round(num / den)`. */
  function RoundRatio(num: nat, den: nat): (r: nat)
    requires den > 0
    ensures RoundsHalfUp(num, den, r)
  {
    (2 * num + den) / (2 * den)
  }

  lemma MulMono(a: nat, x: nat, y: nat)
    requires x <= y
    ensures a * x <= a * y
  {
  }

  /** A ratio of at most `k` rounds to at most `k`. */
  lemma RoundedAtMost(num: nat, den: nat, r: nat, k: nat)
    requires den > 0 && RoundsHalfUp(num, den, r) && num <= k * den
    ensures r <= k
  {
    if r > k {
      MulMono(2 * den, k + 1, r);
    }
  }

  /** Rounding is monotone in the numerator. */
  lemma RoundedMonotone(num1: nat, num2: nat, den: nat, r1: nat, r2: nat)
    requires den > 0 && RoundsHalfUp(num1, den, r1) && RoundsHalfUp(num2, den, r2)
    requires num1 <= num2
    ensures r1 <= r2
  {
    if r1 > r2 {
      MulMono(2 * den, r2 + 1, r1);
    }
  }

  /** A ratio of zero rounds to zero. */
  lemma RoundedZero(den: nat, r: nat)
    requires den > 0 && RoundsHalfUp(0, den, r)
    ensures r == 0
  {
    if r > 0 {
      MulMono(2 * den, 1, r);
    }
  }

  /** A share `i / j` rounds to 100 per cent exactly when it is at least 99.5%. */
  lemma RoundedFull(i: nat, j: nat, r: nat)
    requires 0 < j && i <= j && RoundsHalfUp(100 * i, j, r)
    ensures r == 100 <==> 200 * i >= 199 * j
  {
    if r > 100 {
      MulMono(2 * j, 101, r);
    } else if r < 100 {
      MulMono(2 * j, r + 1, 100);
    }
  }

  /** A subset is no larger than its superset. */
  lemma {:induction false} SubsetCard<T>(a: set<T>, b: set<T>)
    requires a <= b
    ensures |a| <= |b|
    decreases |b|
  {
    if a != {} {
      var x :| x in a;
      SubsetCard(a - {x}, b - {x});
    }
  }

  /** A subset as large as its superset is the superset. */
  lemma SubsetSameCard<T>(a: set<T>, b: set<T>)
    requires a <= b && |a| == |b|
    ensures a == b
  {
    if a != b {
      assert b - a != {} by {
        if b - a == {} {
          forall x | x in b ensures x in a {
            assert x !in b - a;
          }
        }
      }
      var x :| x in b - a;
      SubsetCard(a, b - {x});
    }
  }

  /** `calculateMatchScore(userSkills, jobSkills)`. The score is 0 when either
      list is missing or empty; otherwise, with `i` distinct normalised job
      skills held out of `j`, it is `100 * i / j` rounded half up, so it lies
      in [0, 100]. */
  function MatchScore(user: Option<seq<string>>, job: Option<seq<string>>): (r: nat)
    ensures r <= 100
    ensures NoSkills(user) || NoSkills(job) ==> r == 0
    ensures !NoSkills(user) && !NoSkills(job) ==>
              var i, j := |NormSet(user.value) * NormSet(job.value)|, |NormSet(job.value)|;
              && j > 0 && i <= j
              && RoundsHalfUp(100 * i, j, r)
  {
    if NoSkills(user) || NoSkills(job) then 0
    else
      var u, js := NormSet(user.value), NormSet(job.value);
      assert Normalize(job.value[0]) in js;
      SubsetCard(u * js, js);
      var r := RoundRatio(100 * |u * js|, |js|);
      RoundedAtMost(100 * |u * js|, |js|, r, 100);
      r
  }

  /** The score reaches 100 exactly when at least 99.5% of the distinct job
      skills are held. Holding all of them always gives 100; below 200
      distinct job skills, 100 also means all of them are held. */
  lemma FullMatch(user: seq<string>, job: seq<string>)
    requires |user| > 0 && |job| > 0
    ensures MatchScore(Some(user), Some(job)) == 100 <==>
              200 * |NormSet(user) * NormSet(job)| >= 199 * |NormSet(job)|
    ensures NormSet(job) <= NormSet(user) ==> MatchScore(Some(user), Some(job)) == 100
    ensures |NormSet(job)| < 200 ==>
              (MatchScore(Some(user), Some(job)) == 100 <==> NormSet(job) <= NormSet(user))
  {
    var u, js := NormSet(user), NormSet(job);
    var i, j, r := |u * js|, |js|, MatchScore(Some(user), Some(job));
    RoundedFull(i, j, r);
    if js <= u {
      assert u * js == js;
    }
    if i == j {
      SubsetSameCard(u * js, js);
    }
  }

  /** Adding skills to the user's list never lowers the score. */
  lemma ScoreMonotone(user1: seq<string>, user2: seq<string>, job: Option<seq<string>>)
    requires forall k :: 0 <= k < |user1| ==> user1[k] in user2
    ensures MatchScore(Some(user1), job) <= MatchScore(Some(user2), job)
  {
    if !NoSkills(Some(user1)) && !NoSkills(job) {
      assert user1[0] in user2;
      var u1, u2, js := NormSet(user1), NormSet(user2), NormSet(job.value);
      assert u1 <= u2;
      SubsetCard(u1 * js, u2 * js);
      RoundedMonotone(100 * |u1 * js|, 100 * |u2 * js|, |js|,
                      MatchScore(Some(user1), job), MatchScore(Some(user2), job));
    }
  }

  /** The score depends only on the two normalised sets: reordering a list,
      repeating an entry, or changing its case or surrounding white space
      changes nothing. */
  lemma ScoreOnlyOnNormalisedSets(user1: seq<string>, user2: seq<string>,
                                  job1: seq<string>, job2: seq<string>)
    requires |user1| > 0 && |user2| > 0 && |job1| > 0 && |job2| > 0
    requires NormSet(user1) == NormSet(user2) && NormSet(job1) == NormSet(job2)
    ensures MatchScore(Some(user1), Some(job1)) == MatchScore(Some(user2), Some(job2))
  {
  }

  lemma ImageOne(a: string, f: string -> string)
    ensures Image([a], f) == {f(a)}
  {
  }

  lemma ImageTwo(a: string, b: string, f: string -> string)
    ensures Image([a, b], f) == {f(a), f(b)}
  {
    assert a in [a, b] && b in [a, b];
  }

  lemma LowerExamples()
    ensures Lower("React") == "react" && Lower("Node") == "node"
    ensures Lower("REACT") == "react" && Lower("react.") == "react."
  {
  }

  lemma TrimReact() ensures Trim("react") == "react" { TrimIdentity("react"); }
  lemma TrimNode() ensures Trim("node") == "node" { TrimIdentity("node"); }
  lemma TrimReactDot() ensures Trim("react.") == "react." {
    var s := "react.";
    assert !IsSpace(s[0]) && !IsSpace(s[|s| - 1]);
    TrimIdentity(s);
  }

  /** Lists with no normalised skill in common score 0. */
  lemma DisjointScoresZero(user: seq<string>, job: seq<string>)
    requires |user| > 0 && |job| > 0 && NormSet(user) !! NormSet(job)
    ensures MatchScore(Some(user), Some(job)) == 0
  {
    var js, r := NormSet(job), MatchScore(Some(user), Some(job));
    assert NormSet(user) * js == {};
    assert RoundsHalfUp(0, |js|, r);
    RoundedZero(|js|, r);
  }

  /** Case alone does not keep a skill from matching. */
  lemma CaseOnlyExample()
    ensures MatchScore(Some(["React", "Node"]), Some(["react"])) == 100
  {
    LowerExamples();
    TrimReact();
    TrimNode();
    ImageTwo("React", "Node", Normalize);
    ImageOne("react", Normalize);
    FullMatch(["React", "Node"], ["react"]);
  }

  /** One skill against another it does not normalise to scores 0. */
  lemma SingleMismatch(a: string, b: string)
    requires Normalize(a) != Normalize(b)
    ensures MatchScore(Some([a]), Some([b])) == 0
  {
    SingletonsDisjoint(a, b);
    DisjointScoresZero([a], [b]);
  }

  lemma SingletonsDisjoint(a: string, b: string)
    requires Normalize(a) != Normalize(b)
    ensures NormSet([a]) !! NormSet([b])
  {
    NormSetOne(a);
    NormSetOne(b);
  }

  lemma NormSetOne(a: string)
    ensures NormSet([a]) == {Normalize(a)}
  {
    ImageOne(a, Normalize);
  }

  /** A trailing period is kept, so "react." does not match "REACT". */
  lemma PeriodKeptExample()
    ensures MatchScore(Some(["react."]), Some(["REACT"])) == 0
  {
    assert Normalize("react.") != Normalize("REACT") by {
      LowerExamples();
      TrimReact();
      TrimReactDot();
    }
    SingleMismatch("react.", "REACT");
  }

  /** Normalisation is case folding plus trimming and nothing else: a
      trailing period is kept, so "react." does not match "React". */
  lemma NormalisationExamples()
    ensures MatchScore(Some(["React", "Node"]), Some(["react"])) == 100
    ensures MatchScore(Some(["react."]), Some(["REACT"])) == 0
    ensures MatchScore(Some(["React"]), Some([])) == 0
    ensures MatchScore(None, Some(["React"])) == 0
  {
    CaseOnlyExample();
    PeriodKeptExample();
  }

  /** The colour of the "% Match" badge. */
  datatype Badge = Gray | Yellow | Green

  function BadgeRank(b: Badge): nat {
    match b
    case Gray => 0
    case Yellow => 1
    case Green => 2
  }

  /** Green from 75, yellow from 50, gray below. */
  function BadgeFor(score: int): (b: Badge)
    ensures b == Green <==> score >= 75
    ensures b == Yellow <==> 50 <= score < 75
    ensures b == Gray <==> score < 50
  {
    if score >= 75 then Green else if score >= 50 then Yellow else Gray
  }

  /** A higher score never earns a lower badge. */
  lemma BadgeMonotone(s1: int, s2: int)
    requires s1 <= s2
    ensures BadgeRank(BadgeFor(s1)) <= BadgeRank(BadgeFor(s2))
  {
  }
}

=== FILE: media_modal.dfy ===
/** The full-screen media carousel (client/src/components/MediaModal.jsx):
    wrap-around navigation over `n` media items and the choice of element
    for a media type. */
module MediaModal {
  import opened Wrappers
  import Posts

  /** The remainder of `a` divided by `n`, by repeated subtraction. */
  function Rem(a: nat, n: nat): (r: nat)
    requires n >= 1
    ensures r < n
    decreases a
  {
    if a < n then a else Rem(a - n, n)
  }

  lemma {:induction false} MulAtLeast(d: nat, n: nat)
    requires d >= 1
    ensures d * n >= n
    decreases d
  {
    if d > 1 {
      MulAtLeast(d - 1, n);
      assert d * n == (d - 1) * n + n;
    }
  }

  /** Euclidean division leaves a unique remainder. */
  lemma ModUnique(a: int, n: int, q: int, r: int)
    requires n >= 1 && 0 <= r < n && a == q * n + r
    ensures a % n == r
  {
    var d := q - a / n;
    assert d * n == a % n - r;
    if d >= 1 {
      MulAtLeast(d, n);
      assert false;
    }
    if d <= -1 {
      assert false;
    }
  }

  /** The remainder by subtraction is the remainder of Euclidean division. */
  lemma {:induction false} RemIsMod(a: nat, n: nat)
    requires n >= 1
    ensures Rem(a, n) == a % n
    decreases a
  {
    if a >= n {
      RemIsMod(a - n, n);
      var q := (a - n) / n;
      assert a - n == q * n + (a - n) % n;
      assert a == (q + 1) * n + (a - n) % n;
      ModUnique(a, n, q + 1, (a - n) % n);
    } else {
      ModUnique(a, n, 0, a);
    }
  }

  /** JavaScript's `%` on a positive divisor: the remainder takes the sign
      of the dividend. */
  function JsRem(a: int, n: int): (r: int)
    requires n >= 1
    ensures a >= 0 ==> 0 <= r < n
    ensures a < 0 ==> -n < r <= 0
    ensures a >= 0 ==> r == Rem(a, n)
    ensures a < 0 ==> r == -(Rem(-a, n) as int)
  {
    if a >= 0 then Rem(a, n) else -(Rem(-a, n) as int)
  }

  /** `goToNext` on `n` items. */
  function Next(i: int, n: int): (r: int)
    requires n >= 1
    ensures 0 <= i < n ==> 0 <= r < n && r == (if i == n - 1 then 0 else i + 1)
  {
    assert i == n - 1 ==> Rem(i + 1, n) == Rem(0, n);
    JsRem(i + 1, n)
  }

  /** `goToPrev` on `n` items: `n` is added before the remainder so that
      stepping back from 0 wraps to the last item. */
  function Prev(i: int, n: int): (r: int)
    requires n >= 1
    ensures 0 <= i < n ==> 0 <= r < n && r == (if i == 0 then n - 1 else i - 1)
  {
    assert 0 <= i < n ==> Rem(i - 1 + n, n) == (if i == 0 then n - 1 else i - 1) by {
      if 0 < i < n {
        assert Rem(i - 1 + n, n) == Rem(i - 1, n);
      }
    }
    JsRem(i - 1 + n, n)
  }

  /** On a valid index both moves are the modular steps `(i + 1) % n` and
      `(i - 1 + n) % n`. */
  lemma StepsAreModular(i: int, n: int)
    requires n >= 1 && 0 <= i < n
    ensures Next(i, n) == (i + 1) % n
    ensures Prev(i, n) == (i - 1 + n) % n
  {
    RemIsMod(i + 1, n);
    RemIsMod(i - 1 + n, n);
  }

  /** From a valid index, going forward then back (or back then forward)
      returns to it. */
  lemma NextPrevInverse(i: int, n: int)
    requires n >= 1 && 0 <= i < n
    ensures Prev(Next(i, n), n) == i
    ensures Next(Prev(i, n), n) == i
  {
  }

  /** `k` presses of the next button. */
  function NextTimes(i: int, n: int, k: nat): int
    requires n >= 1
    decreases k
  {
    if k == 0 then i else Next(NextTimes(i, n, k - 1), n)
  }

  lemma {:induction false} RemSucc(a: nat, n: nat)
    requires n >= 1
    ensures Rem(Rem(a, n) + 1, n) == Rem(a + 1, n)
    decreases a
  {
    if a >= n {
      RemSucc(a - n, n);
    }
  }

  /** `k` presses from a valid index land `k` places on, wrapping at `n`. */
  lemma {:induction false} NextTimesIsRem(i: int, n: int, k: nat)
    requires n >= 1 && 0 <= i < n
    ensures NextTimes(i, n, k) == Rem(i + k, n)
    decreases k
  {
    if k > 0 {
      NextTimesIsRem(i, n, k - 1);
      RemSucc(i + k - 1, n);
    }
  }

  /** Going forward once per item returns to the start. */
  lemma FullCycle(i: int, n: int)
    requires n >= 1 && 0 <= i < n
    ensures NextTimes(i, n, n) == i
  {
    NextTimesIsRem(i, n, n);
  }

  /** With a single item both buttons stay put. */
  lemma SingleItemFixed(i: int)
    requires 0 <= i < 1
    ensures Next(i, 1) == i && Prev(i, 1) == i
  {
  }

  /** The previous and next buttons appear only for more than one URL. */
  function ShowControls(urls: seq<string>): (r: bool)
    ensures r <==> |urls| >= 2
  {
    |urls| > 1
  }

  /** The element `renderMedia` produces. */
  datatype Rendering = ImageTag | VideoTag | AudioTag | Frame | Unsupported

  /** `renderMedia`'s switch on the type, which may be missing. */
  function RenderKind(t: Option<string>): (r: Rendering)
    ensures r == Frame <==> t == Some("document") || t == Some("pdf")
    ensures r == ImageTag <==> t == Some("image")
    ensures r == VideoTag <==> t == Some("video")
    ensures r == AudioTag <==> t == Some("audio")
    ensures r == Unsupported <==>
              t.None? || t.value !in {"image", "video", "audio", "document", "pdf"}
  {
    match t
    case None => Unsupported
    case Some(s) =>
      if s == "image" then ImageTag
      else if s == "video" then VideoTag
      else if s == "audio" then AudioTag
      else if s == "document" || s == "pdf" then Frame
      else Unsupported
  }

  /** Every media type an upload can yield has a supported rendering, and it
      is the one the type names. */
  lemma UploadedMediaRenders(resourceType: string, mimetype: string)
    ensures RenderKind(Some(Posts.MediaTypeFor(resourceType, mimetype))) != Unsupported
    ensures Posts.MediaTypeFor(resourceType, mimetype) == "pdf" ==>
              RenderKind(Some(Posts.MediaTypeFor(resourceType, mimetype))) == Frame
  {
  }
}

=== FILE: post_model.dfy ===
/** The `Post` document with its embedded claps and comments
    (server/models/Post.js). */
module PostModel {
  import opened Wrappers
  import opened UserModel

  type PostId = nat

  /** One clap, `{ user: <clapper> }`. */
  datatype Clap = Clap(user: UserId)

  /** A comment; `name` is a snapshot of the commenter's name. */
  datatype Comment = Comment(user: UserId, text: string, name: Option<string>, createdAt: int)

  /** `shares` is a number that a document written before the path existed
      may lack, hence the `Option`. */
  datatype Post = Post(
    id: PostId,
    user: UserId,
    text: string,
    mediaUrl: Option<string>,
    mediaType: Option<string>,
    claps: seq<Clap>,
    comments: seq<Comment>,
    shares: Option<int>,
    createdAt: int)

  /** The posts collection, keyed by document id. */
  type Posts = map<PostId, Post>

  ghost predicate ValidPosts(posts: Posts) {
    forall k :: k in posts ==> posts[k].id == k
  }

  /** A new post document: no claps, no comments, `shares` at its default 0.
      The author and text are required. */
  function NewPost(id: PostId, user: UserId, text: string, mediaUrl: Option<string>,
                   mediaType: Option<string>, now: int): (r: Result<Post>)
    ensures r.Ok? <==> text != ""
    ensures r.Err? ==> r.status == ServerError
    ensures r.Ok? ==> && r.value.id == id && r.value.user == user && r.value.text == text
                      && r.value.mediaUrl == mediaUrl && r.value.mediaType == mediaType
                      && r.value.createdAt == now
    ensures r.Ok? ==> r.value.claps == [] && r.value.comments == [] && r.value.shares == Some(0)
  {
    if text != "" then Ok(Post(id, user, text, mediaUrl, mediaType, [], [], Some(0), now))
    else Err(ServerError, "Post validation failed")
  }

  /** A new comment: its text is required; `createdAt` defaults to now. */
  function NewComment(user: UserId, text: Option<string>, name: string, now: int): (r: Result<Comment>)
    ensures r.Ok? <==> Present(text)
    ensures r.Err? ==> r.status == ServerError
    ensures r.Ok? ==> r.value == Comment(user, text.value, Some(name), now)
  {
    if Present(text) then Ok(Comment(user, text.value, Some(name), now))
    else Err(ServerError, "Comment validation failed")
  }
}

=== FILE: posts.dfy ===
/** The post routes (server/routes/posts.js): media upload, create, clap,
    comment and share. Each handler is a function from the posts collection
    and the request to the collection after it and its answer; the
    authenticated user's id and the clock are parameters. */
module Posts {
  import opened Wrappers
  import opened Text
  import opened Seqs
  import opened UserModel
  import opened PostModel
  import opened Upload

  /** What the media host answers: the public URL and the kind of resource
      it detected, or a failure. */
  datatype HostAnswer = Hosted(secureUrl: string, resourceType: string) | HostFailed

  /** The body of a successful upload. */
  datatype MediaRef = MediaRef(mediaUrl: string, mediaType: string)

  /** A video when the host says so, otherwise a PDF when the browser said
      so, otherwise an image. */
  function MediaTypeFor(resourceType: string, mimetype: string): (r: string)
    ensures r == "video" <==> resourceType == "video"
    ensures r == "pdf" <==> resourceType != "video" && mimetype == "application/pdf"
    ensures r == "image" <==> resourceType != "video" && mimetype != "application/pdf"
  {
    if resourceType == "video" then "video"
    else if mimetype == "application/pdf" then "pdf"
    else "image"
  }

  /** `POST /api/posts/upload-media`. The upload middleware runs first: a
      file it refuses (wrong type or too large) ends in its error, a 500.
      With no file at all the handler answers 400; a host failure is a 500. */
  function UploadMedia(file: Option<UploadedFile>, host: HostAnswer): (r: Result<MediaRef>)
    ensures r.Ok? <==> file.Some? && Receive(file.value).Ok? && host.Hosted?
    ensures file.None? ==> r == Err(BadRequest, "No file uploaded.")
    ensures file.Some? && r.Err? ==> r.status == ServerError
    ensures r.Ok? ==> && CheckFileType(file.value).Admit?
                      && file.value.size <= MaxFileSize
                      && r.value.mediaUrl == host.secureUrl
                      && r.value.mediaType == MediaTypeFor(host.resourceType, file.value.mimetype)
  {
    if file.None? then Err(BadRequest, "No file uploaded.")
    else
      match Receive(file.value)
      case Err(s, m) => Err(s, m)
      case Ok(f) =>
        match host
        case HostFailed => Err(ServerError, "Server Error")
        case Hosted(url, kind) => Ok(MediaRef(url, MediaTypeFor(kind, f.mimetype)))
  }

  /** `POST /api/posts`: text that is missing or only white space is refused
      with 400 before anything is written; otherwise the new post is stored
      under a fresh id and returned. */
  function CreatePost(posts: Posts, newId: PostId, user: UserId, text: Option<string>,
                      mediaUrl: Option<string>, mediaType: Option<string>, now: int): (r: Reply<Posts, Post>)
    requires newId !in posts
    ensures r.answer.Err? <==> text.None? || AllSpace(text.value)
    ensures r.answer.Err? ==> r.answer == Err(BadRequest, "Text is required") && r.state == posts
    ensures r.answer.Ok? ==> && r.state == posts[newId := r.answer.value]
                             && r.answer.value.id == newId && r.answer.value.user == user
                             && r.answer.value.text == text.value
                             && r.answer.value.mediaUrl == mediaUrl
                             && r.answer.value.mediaType == mediaType
                             && r.answer.value.claps == [] && r.answer.value.comments == []
                             && r.answer.value.shares == Some(0)
                             && r.answer.value.createdAt == now
  {
    if text.None? || Trim(text.value) == "" then Reply(posts, Err(BadRequest, "Text is required"))
    else
      assert text.value != "";
      var p := NewPost(newId, user, text.value, mediaUrl, mediaType, now).value;
      Reply(posts[newId := p], Ok(p))
  }

  /** A fresh post keeps the collection well formed. */
  lemma CreatePostKeepsValid(posts: Posts, newId: PostId, user: UserId, text: Option<string>,
                             mediaUrl: Option<string>, mediaType: Option<string>, now: int)
    requires newId !in posts && ValidPosts(posts)
    ensures ValidPosts(CreatePost(posts, newId, user, text, mediaUrl, mediaType, now).state)
  {
  }

  /** The claps of everyone but `u`, in their order. */
  function ClapsOfOthers(claps: seq<Clap>, u: UserId): seq<Clap> {
    Filter(claps, (c: Clap) => c.user != u)
  }

  /** The clap toggle: a user who has clapped loses every one of their claps;
      one who has not gets exactly one clap, in front. */
  function ToggleClap(claps: seq<Clap>, u: UserId): (r: seq<Clap>)
    ensures Clap(u) in r <==> Clap(u) !in claps
    ensures ClapsOfOthers(r, u) == ClapsOfOthers(claps, u)
    ensures Clap(u) in claps ==> r == ClapsOfOthers(claps, u)
    ensures Clap(u) !in claps ==> r == [Clap(u)] + claps
    ensures Distinct(claps) ==> Distinct(r)
  {
    if Clap(u) in claps then
      var r := ClapsOfOthers(claps, u);
      FilterMembers(claps, (c: Clap) => c.user != u);
      FilterIdempotent(claps, (c: Clap) => c.user != u);
      if Distinct(claps) then FilterDistinct(claps, (c: Clap) => c.user != u); r else r
    else
      var r := [Clap(u)] + claps;
      assert ClapsOfOthers(r, u) == ClapsOfOthers(claps, u) by {
        assert r[1..] == claps;
      }
      r
  }

  /** Clapping twice restores whether the user has clapped and everyone
      else's claps; when the user had not clapped, it restores the list. */
  lemma ClapTwice(claps: seq<Clap>, u: UserId)
    ensures Clap(u) in ToggleClap(ToggleClap(claps, u), u) <==> Clap(u) in claps
    ensures ClapsOfOthers(ToggleClap(ToggleClap(claps, u), u), u) == ClapsOfOthers(claps, u)
    ensures Clap(u) !in claps ==> ToggleClap(ToggleClap(claps, u), u) == claps
  {
    if Clap(u) !in claps {
      var once := ToggleClap(claps, u);
      assert once[1..] == claps;
      FilterMembers(claps, (c: Clap) => c.user != u);
      FilterAll(claps, (c: Clap) => c.user != u);
    }
  }

  /** A user's clap toggles: its presence flips, and other users' claps are
      the same whether or not it is there. */
  lemma ClapMembership(claps: seq<Clap>, u: UserId, v: UserId)
    requires v != u
    ensures Clap(v) in ToggleClap(claps, u) <==> Clap(v) in claps
  {
    var p := (c: Clap) => c.user != u;
    FilterMembers(claps, p);
    FilterMembers(ToggleClap(claps, u), p);
  }

  /** `PUT /api/posts/clap/:id`: 404 and no change for a missing post;
      otherwise only that post's claps change, and the new list is sent: a
      user who had clapped loses every clap of theirs, and one who had not
      gets exactly one clap in front of the others. */
  function ClapPost(posts: Posts, id: PostId, u: UserId): (r: Reply<Posts, seq<Clap>>)
    ensures r.answer.Err? <==> id !in posts
    ensures r.answer.Err? ==> r.answer == Err(NotFound, "Post not found") && r.state == posts
    ensures r.answer.Ok? ==> && r.state == posts[id := posts[id].(claps := r.answer.value)]
                             && (Clap(u) in r.answer.value <==> Clap(u) !in posts[id].claps)
                             && ClapsOfOthers(r.answer.value, u) == ClapsOfOthers(posts[id].claps, u)
    ensures r.answer.Ok? && Clap(u) !in posts[id].claps ==> r.answer.value == [Clap(u)] + posts[id].claps
    ensures r.answer.Ok? && Clap(u) in posts[id].claps ==> r.answer.value == ClapsOfOthers(posts[id].claps, u)
  {
    if id !in posts then Reply(posts, Err(NotFound, "Post not found"))
    else
      var claps := ToggleClap(posts[id].claps, u);
      Reply(posts[id := posts[id].(claps := claps)], Ok(claps))
  }

  /** `POST /api/posts/comment/:id`. Reading the commenter's name from a
      missing user, adding to a missing post, and a comment without text all
      end in 500 with nothing written. Otherwise the comment, carrying the
      name the user has now, goes in front of the existing ones. */
  function CommentOnPost(users: Users, posts: Posts, id: PostId, u: UserId,
                         text: Option<string>, now: int): (r: Reply<Posts, seq<Comment>>)
    ensures r.answer.Ok? <==> u in users && id in posts && Present(text)
    ensures r.answer.Err? ==> r.answer.status == ServerError && r.state == posts
    ensures r.answer.Ok? ==>
              && r.answer.value == [Comment(u, text.value, Some(users[u].name), now)] + posts[id].comments
              && r.answer.value[1..] == posts[id].comments
              && r.state == posts[id := posts[id].(comments := r.answer.value)]
  {
    if u !in users || id !in posts then Reply(posts, Err(ServerError, "Server Error"))
    else
      match NewComment(u, text, users[u].name, now)
      case Err(_, _) => Reply(posts, Err(ServerError, "Server Error"))
      case Ok(c) =>
        var comments := [c] + posts[id].comments;
        Reply(posts[id := posts[id].(comments := comments)], Ok(comments))
  }

  /** The share count with an unset count read as 0. */
  function ShareCount(p: Post): int {
    p.shares.GetOr(0)
  }

  /** `POST /api/posts/share/:id`: no user is involved, so every call counts;
      404 for a missing post. */
  function SharePost(posts: Posts, id: PostId): (r: Reply<Posts, int>)
    ensures r.answer.Err? <==> id !in posts
    ensures r.answer.Err? ==> r.answer == Err(NotFound, "Post not found") && r.state == posts
    ensures r.answer.Ok? ==> && r.answer.value == ShareCount(posts[id]) + 1
                             && r.state == posts[id := posts[id].(shares := Some(r.answer.value))]
  {
    if id !in posts then Reply(posts, Err(NotFound, "Post not found"))
    else
      var n := ShareCount(posts[id]) + 1;
      Reply(posts[id := posts[id].(shares := Some(n))], Ok(n))
  }

  /** `n` shares in a row. */
  function ShareTimes(posts: Posts, id: PostId, n: nat): Posts
    decreases n
  {
    if n == 0 then posts else ShareTimes(SharePost(posts, id).state, id, n - 1)
  }

  /** Sharing `n` times raises the count by exactly `n`, from 0 when it was
      unset, and touches no other post. */
  lemma {:induction false} SharesAccumulate(posts: Posts, id: PostId, n: nat)
    requires id in posts
    ensures id in ShareTimes(posts, id, n)
    ensures ShareCount(ShareTimes(posts, id, n)[id]) == ShareCount(posts[id]) + n
    ensures ShareTimes(posts, id, n).Keys == posts.Keys
    ensures forall k :: k in posts && k != id ==> ShareTimes(posts, id, n)[k] == posts[k]
    decreases n
  {
    if n > 0 {
      SharesAccumulate(SharePost(posts, id).state, id, n - 1);
    }
  }
}

=== FILE: profile.dfy ===
/** The current user's own profile (server/routes/profile.js): reading it,
    and the partial update that writes only whitelisted, truthy fields. */
module Profile {
  import opened Wrappers
  import opened Text
  import opened UserModel

  /** `GET /api/profile/me`: the authenticated user without the password,
      or 404. */
  function GetMe(users: Users, me: UserId): (r: Result<ProfileView>)
    ensures r.Ok? <==> me in users
    ensures r.Err? ==> r == Err(NotFound, "User not found")
    ensures r.Ok? ==> && r.value.id == users[me].id && r.value.name == users[me].name
                      && r.value.email == users[me].email && r.value.bio == users[me].bio
                      && r.value.linkedinURL == users[me].linkedinURL
                      && r.value.skills == users[me].skills
                      && r.value.walletAddress == users[me].walletAddress
                      && r.value.createdAt == users[me].createdAt
                      && r.value.connections == users[me].connections
                      && r.value.connectionRequests == users[me].connectionRequests
  {
    if me in users then Ok(View(users[me])) else Err(NotFound, "User not found")
  }

  /** What `/me` sends does not depend on the stored password. */
  lemma MeHidesPassword(users: Users, me: UserId, password: string)
    requires ValidUsers(users) && me in users
    ensures GetMe(users[me := users[me].(password := password)], me) == GetMe(users, me)
  {
    ViewDropsOnlyPassword(users[me].(password := password), users[me]);
  }

  /** `skills` arrives either as an array, kept as it is, or as one
      comma-separated string. */
  datatype SkillsInput = SkillsArray(items: seq<string>) | SkillsText(text: string)

  /** The update body; an absent key is `None`. */
  datatype ProfileRequest = ProfileRequest(
    name: Option<string>,
    bio: Option<string>,
    linkedinURL: Option<string>,
    skills: Option<SkillsInput>,
    walletAddress: Option<string>)

  /** `profileFields`: the paths that `$set` will write. */
  datatype ProfileFields = ProfileFields(
    name: Option<string>,
    bio: Option<string>,
    linkedinURL: Option<string>,
    skills: Option<seq<string>>,
    walletAddress: Option<string>)

  /** A truthy string: present and not empty. */
  function Truthy(s: Option<string>): (r: Option<string>)
    ensures r.Some? <==> Present(s)
    ensures r.Some? ==> r == s
  {
    if Present(s) then s else None
  }

  /** A skills string split on every comma, each piece trimmed; empty pieces
      stay. */
  function SplitSkills(text: string): (r: seq<string>)
    ensures |r| == |Split(text, ',')| && |r| >= 1
    ensures forall i :: 0 <= i < |r| ==> r[i] == Trim(Split(text, ',')[i])
    ensures forall i :: 0 <= i < |r| ==> IsTrimmed(r[i]) && ',' !in r[i]
  {
    var pieces := Split(text, ',');
    var r := TrimAll(pieces);
    assert forall i :: 0 <= i < |r| ==> ',' !in r[i] by {
      forall i | 0 <= i < |r| ensures ',' !in r[i] {
        TrimInside(pieces[i], ',');
      }
    }
    r
  }

  /** A trimmed string has no character its source lacks. */
  lemma TrimInside(s: string, c: char)
    requires c !in s
    ensures c !in Trim(s)
  {
    var i := TrimSlice(s);
    var t := Trim(s);
    forall k | 0 <= k < |t| ensures t[k] != c {
      assert t[k] == s[i + k];
    }
  }

  /** Only name, bio, linkedinURL, walletAddress and skills can be picked, and
      only when truthy; any skills array is truthy, a skills string only when
      not empty. */
  function BuildFields(req: ProfileRequest): (f: ProfileFields)
    ensures f.name.Some? <==> Present(req.name)
    ensures f.bio.Some? <==> Present(req.bio)
    ensures f.linkedinURL.Some? <==> Present(req.linkedinURL)
    ensures f.walletAddress.Some? <==> Present(req.walletAddress)
    ensures f.name.Some? ==> f.name == req.name
    ensures f.bio.Some? ==> f.bio == req.bio
    ensures f.linkedinURL.Some? ==> f.linkedinURL == req.linkedinURL
    ensures f.walletAddress.Some? ==> f.walletAddress == req.walletAddress
    ensures f.skills.Some? <==> req.skills.Some? && (req.skills.value.SkillsText? ==> req.skills.value.text != "")
    ensures req.skills.Some? && req.skills.value.SkillsArray? ==> f.skills == Some(req.skills.value.items)
    ensures f.skills.Some? && req.skills.value.SkillsText? ==> f.skills == Some(SplitSkills(req.skills.value.text))
  {
    ProfileFields(
      Truthy(req.name), Truthy(req.bio), Truthy(req.linkedinURL),
      match req.skills
      case None => None
      case Some(SkillsArray(xs)) => Some(xs)
      case Some(SkillsText(t)) => if t != "" then Some(SplitSkills(t)) else None,
      Truthy(req.walletAddress))
  }

  /** `$set`: each picked field replaces the stored one; nothing else is
      written. */
  function SetFields(u: User, f: ProfileFields): (v: User)
    ensures v.(name := u.name, bio := u.bio, linkedinURL := u.linkedinURL,
               skills := u.skills, walletAddress := u.walletAddress) == u
    ensures v.name == f.name.GetOr(u.name) && v.bio == f.bio.GetOr(u.bio)
    ensures v.linkedinURL == f.linkedinURL.GetOr(u.linkedinURL)
    ensures v.skills == f.skills.GetOr(u.skills)
    ensures v.walletAddress == f.walletAddress.GetOr(u.walletAddress)
  {
    u.(name := f.name.GetOr(u.name), bio := f.bio.GetOr(u.bio),
       linkedinURL := f.linkedinURL.GetOr(u.linkedinURL), skills := f.skills.GetOr(u.skills),
       walletAddress := f.walletAddress.GetOr(u.walletAddress))
  }

  /** `POST /api/profile`: 404 and no write for a missing user; otherwise the
      picked fields are written and the updated profile is sent without its
      password. */
  function UpdateProfile(users: Users, me: UserId, req: ProfileRequest): (r: Reply<Users, ProfileView>)
    ensures r.answer.Ok? <==> me in users
    ensures r.answer.Err? ==> r.answer == Err(NotFound, "User not found") && r.state == users
    ensures r.answer.Ok? ==>
              && r.state == users[me := SetFields(users[me], BuildFields(req))]
              && r.answer.value == View(r.state[me])
  {
    if me !in users then Reply(users, Err(NotFound, "User not found"))
    else
      var u := SetFields(users[me], BuildFields(req));
      Reply(users[me := u], Ok(View(u)))
  }

  /** The update touches only the caller's document and only the five
      whitelisted paths; an empty or absent field keeps the stored value;
      the email, password, connections and requests are never written, so
      the store stays valid. */
  lemma UpdateWritesOnlyWhitelist(users: Users, me: UserId, req: ProfileRequest)
    requires ValidUsers(users) && me in users
    ensures var s := UpdateProfile(users, me, req).state;
            && ValidUsers(s) && s.Keys == users.Keys
            && (forall k :: k in users && k != me ==> s[k] == users[k])
            && s[me].id == users[me].id && s[me].email == users[me].email
            && s[me].password == users[me].password && s[me].createdAt == users[me].createdAt
            && s[me].connections == users[me].connections
            && s[me].connectionRequests == users[me].connectionRequests
            && (!Present(req.name) ==> s[me].name == users[me].name)
            && (!Present(req.bio) ==> s[me].bio == users[me].bio)
            && (!Present(req.linkedinURL) ==> s[me].linkedinURL == users[me].linkedinURL)
            && (!Present(req.walletAddress) ==> s[me].walletAddress == users[me].walletAddress)
            && (req.skills.None? ==> s[me].skills == users[me].skills)
  {
  }

  /** Sending the same update twice is the same as sending it once. */
  lemma UpdateIdempotent(users: Users, me: UserId, req: ProfileRequest)
    ensures var once := UpdateProfile(users, me, req);
            UpdateProfile(once.state, me, req) == once
  {
    if me in users {
      var f := BuildFields(req);
      var u := SetFields(users[me], f);
      assert SetFields(u, f) == u;
      var s := users[me := u];
      assert s[me := u] == s;
      assert UpdateProfile(s, me, req) == Reply(s[me := u], Ok(View(u)));
    }
  }

  /** A skills string split and joined back with commas is the string with
      the white space around each piece removed. */
  lemma SplitSkillsRoundTrip(pieces: seq<string>)
    requires |pieces| >= 1
    requires forall i :: 0 <= i < |pieces| ==> IsTrimmed(pieces[i]) && ',' !in pieces[i]
    ensures SplitSkills(Join(pieces, ",")) == pieces
  {
    SplitJoin(pieces, ',');
    forall i | 0 <= i < |pieces| ensures Trim(pieces[i]) == pieces[i] {
      TrimIdentity(pieces[i]);
    }
  }
}

=== FILE: profile_page.dfy ===
/** The interact button on another user's profile page
    (client/src/components/ProfilePage.jsx), computed from the two profiles
    the page fetched. The current user's profile may have failed to load. */
module ProfilePage {
  import opened Wrappers
  import opened UserModel
  import Profiles

  /** `isConnected`: the viewed user is among the current user's connections. */
  predicate IsConnected(current: Option<ProfileView>, viewed: ProfileView) {
    current.Some? && viewed.id in current.value.connections
  }

  /** `requestSent`: the viewed user holds a request from the current user. */
  predicate RequestSent(current: Option<ProfileView>, viewed: ProfileView) {
    current.Some? && ConnectionRequest(current.value.id) in viewed.connectionRequests
  }

  /** `isSelf`. */
  predicate IsSelf(current: Option<ProfileView>, viewed: ProfileView) {
    current.Some? && current.value.id == viewed.id
  }

  datatype Button = Hidden | Shown(disabled: bool, caption: string)

  /** Hidden on one's own page; otherwise disabled once connected or
      requested, captioned by the first of those that holds. */
  function InteractButton(current: Option<ProfileView>, viewed: ProfileView): (b: Button)
    ensures b.Hidden? <==> IsSelf(current, viewed)
    ensures b.Shown? ==> (b.disabled <==> IsConnected(current, viewed) || RequestSent(current, viewed))
    ensures b.Shown? ==> (b.caption == "Connected" <==> IsConnected(current, viewed))
    ensures b.Shown? ==> (b.caption == "Request Sent" <==> !IsConnected(current, viewed) && RequestSent(current, viewed))
    ensures b.Shown? ==> (b.caption == "Interact" <==> !b.disabled)
  {
    if IsSelf(current, viewed) then Hidden
    else
      var connected, sent := IsConnected(current, viewed), RequestSent(current, viewed);
      Shown(connected || sent,
            if connected then "Connected" else if sent then "Request Sent" else "Interact")
  }

  /** With both profiles loaded from the store, the page offers an enabled
      button exactly when the server would accept the request, hides it
      exactly when the server would refuse a request to oneself, and its
      disabled captions name the server's refusals. */
  lemma ButtonAgreesWithServer(users: Users, me: UserId, other: UserId)
    requires ValidUsers(users) && me in users && other in users
    ensures var b := InteractButton(Some(View(users[me])), View(users[other]));
            var a := Profiles.Interact(users, other, me).answer;
            && (b == Shown(false, "Interact") <==> a.Ok?)
            && (b.Hidden? <==> a == Err(BadRequest, "You cannot connect with yourself."))
            && (b == Shown(true, "Connected") <==> a == Err(BadRequest, "You are already connected."))
            && (b == Shown(true, "Request Sent") <==> a == Err(BadRequest, "Request already sent."))
  {
  }
}

=== FILE: profiles.dfy ===
/** The public profile and connection routes (server/routes/profiles.js):
    looking a profile up, sending a connection request, and accepting one.

    The two lookups each handler starts with are atomic with its writes
    here. `sender` is the authenticated user in `Interact`, and the path
    parameter in `Accept`, where `me` is the authenticated user. */
module Profiles {
  import opened Wrappers
  import opened Seqs
  import opened UserModel

  /** `GET /api/profiles/:userId`: the profile without its password, or 404. */
  function GetProfile(users: Users, id: UserId): (r: Result<ProfileView>)
    ensures r.Ok? <==> id in users
    ensures r.Err? ==> r == Err(NotFound, "Profile not found")
    ensures r.Ok? ==> && r.value.id == users[id].id && r.value.name == users[id].name
                      && r.value.email == users[id].email && r.value.bio == users[id].bio
                      && r.value.linkedinURL == users[id].linkedinURL
                      && r.value.skills == users[id].skills
                      && r.value.walletAddress == users[id].walletAddress
                      && r.value.createdAt == users[id].createdAt
                      && r.value.connections == users[id].connections
                      && r.value.connectionRequests == users[id].connectionRequests
  {
    if id in users then Ok(View(users[id])) else Err(NotFound, "Profile not found")
  }

  /** Changing a stored password never changes what the route sends. */
  lemma ProfileHidesPassword(users: Users, id: UserId, password: string)
    requires id in users
    ensures GetProfile(users[id := users[id].(password := password)], id) == GetProfile(users, id)
  {
    ViewDropsOnlyPassword(users[id].(password := password), users[id]);
  }

  /** `sender` has a pending request to `u`. */
  predicate HasRequestFrom(u: User, sender: UserId) {
    ConnectionRequest(sender) in u.connectionRequests
  }

  /** The requests of `u` from anyone but `sender`, in their order. */
  function RequestsNotFrom(reqs: seq<ConnectionRequest>, sender: UserId): seq<ConnectionRequest> {
    Filter(reqs, (q: ConnectionRequest) => q.from != sender)
  }

  /** `PUT /api/profiles/interact/:userId`, in the order the checks run:
      404 for a missing recipient; reading a missing sender fails with 500;
      400 for oneself, for a recipient already among the sender's
      connections, and for a request already pending. Otherwise one request
      from the sender goes in front of the recipient's list. */
  function Interact(users: Users, recipient: UserId, sender: UserId): (r: Reply<Users, seq<ConnectionRequest>>)
    ensures r.answer.Ok? <==>
              && recipient in users && sender in users && recipient != sender
              && recipient !in users[sender].connections
              && !HasRequestFrom(users[recipient], sender)
    ensures r.answer.Err? ==> r.state == users
    ensures recipient !in users ==> r.answer == Err(NotFound, "User not found")
    ensures recipient in users && sender !in users ==> r.answer.Err? && r.answer.status == ServerError
    ensures recipient in users && sender in users ==>
              && (recipient == sender ==> r.answer == Err(BadRequest, "You cannot connect with yourself."))
              && (recipient != sender && recipient in users[sender].connections ==>
                    r.answer == Err(BadRequest, "You are already connected."))
              && (recipient != sender && recipient !in users[sender].connections
                  && HasRequestFrom(users[recipient], sender) ==>
                    r.answer == Err(BadRequest, "Request already sent."))
    ensures r.answer.Ok? ==>
              && r.answer.value == [ConnectionRequest(sender)] + users[recipient].connectionRequests
              && r.state == users[recipient := users[recipient].(connectionRequests := r.answer.value)]
  {
    if recipient !in users then Reply(users, Err(NotFound, "User not found"))
    else if sender !in users then Reply(users, Err(ServerError, "Server Error"))
    else if recipient == sender then Reply(users, Err(BadRequest, "You cannot connect with yourself."))
    else if recipient in users[sender].connections then Reply(users, Err(BadRequest, "You are already connected."))
    else if HasRequestFrom(users[recipient], sender) then Reply(users, Err(BadRequest, "Request already sent."))
    else
      var reqs := [ConnectionRequest(sender)] + users[recipient].connectionRequests;
      Reply(users[recipient := users[recipient].(connectionRequests := reqs)], Ok(reqs))
  }

  /** A request leaves every other user alone and keeps the store valid;
      the recipient's earlier requests keep their order behind the new one. */
  lemma InteractFrame(users: Users, recipient: UserId, sender: UserId)
    requires ValidUsers(users)
    ensures ValidUsers(Interact(users, recipient, sender).state)
    ensures Interact(users, recipient, sender).state.Keys == users.Keys
    ensures forall k :: k in users && k != recipient ==> Interact(users, recipient, sender).state[k] == users[k]
    ensures Interact(users, recipient, sender).answer.Ok? ==>
              RequestsNotFrom(Interact(users, recipient, sender).state[recipient].connectionRequests, sender)
                == users[recipient].connectionRequests
  {
    var r := Interact(users, recipient, sender);
    if r.answer.Ok? {
      var p := (q: ConnectionRequest) => q.from != sender;
      FilterAll(users[recipient].connectionRequests, p);
      assert r.state[recipient].connectionRequests[1..] == users[recipient].connectionRequests;
    }
  }

  /** `PUT /api/profiles/accept/:senderId`: 404 for a missing sender; a
      missing current user fails with 500. No pending request is needed and
      an existing connection is not checked. The first save writes `me`
      without the sender's requests and with the sender in front of its
      connections; the second saves the sender with `me` in front of its
      connections. Accepting oneself loads one document twice: the first
      save bumps its version key, so the second, stale save matches no
      document and the route answers 500, keeping the first save. */
  function Accept(users: Users, me: UserId, sender: UserId): (r: Reply<Users, seq<UserId>>)
    ensures r.answer.Ok? <==> sender in users && me in users && me != sender
    ensures sender !in users ==> r.answer == Err(NotFound, "Requesting user not found.") && r.state == users
    ensures sender in users && me !in users ==> r.answer.Err? && r.answer.status == ServerError && r.state == users
    ensures sender in users && me in users ==>
              && r.state.Keys == users.Keys
              && (forall k :: k in users && k != me && k != sender ==> r.state[k] == users[k])
              && r.state[me] == users[me].(connectionRequests := RequestsNotFrom(users[me].connectionRequests, sender),
                                           connections := [sender] + users[me].connections)
              && (me != sender ==> r.state[sender] == users[sender].(connections := [me] + users[sender].connections))
              && (me == sender ==> r.answer.Err? && r.answer.status == ServerError)
    ensures r.answer.Ok? ==> r.answer.value == [sender] + users[me].connections
  {
    if sender !in users then Reply(users, Err(NotFound, "Requesting user not found."))
    else if me !in users then Reply(users, Err(ServerError, "Server Error"))
    else
      var mine := users[me].(connectionRequests := RequestsNotFrom(users[me].connectionRequests, sender),
                             connections := [sender] + users[me].connections);
      var afterMe := users[me := mine];
      if me == sender then Reply(afterMe, Err(ServerError, "Server Error"))
      else
        var theirs := users[sender].(connections := [me] + users[sender].connections);
        Reply(afterMe[sender := theirs], Ok(mine.connections))
  }

  /** Accepting links the two users both ways, clears the sender's requests
      to `me`, leaves every other user as it was, and keeps the store valid. */
  lemma AcceptLinksBoth(users: Users, me: UserId, sender: UserId)
    requires ValidUsers(users) && me in users && sender in users && me != sender
    ensures var s := Accept(users, me, sender).state;
            && ValidUsers(s)
            && sender in s[me].connections && me in s[sender].connections
            && !HasRequestFrom(s[me], sender)
            && (forall k :: k in users && k != me && k != sender ==> s[k] == users[k])
            && s[sender].connectionRequests == users[sender].connectionRequests
  {
    var p := (q: ConnectionRequest) => q.from != sender;
    FilterMembers(users[me].connectionRequests, p);
  }

  /** A request followed by its acceptance connects the pair and leaves the
      recipient's pending requests exactly as they were before it. */
  lemma InteractThenAccept(users: Users, recipient: UserId, sender: UserId)
    requires ValidUsers(users)
    requires Interact(users, recipient, sender).answer.Ok?
    ensures var s := Accept(Interact(users, recipient, sender).state, recipient, sender).state;
            && s[recipient].connectionRequests == users[recipient].connectionRequests
            && s[recipient].connections == [sender] + users[recipient].connections
            && s[sender].connections == [recipient] + users[sender].connections
  {
    InteractFrame(users, recipient, sender);
  }

  /** Once accepted, neither side can send the other a request. */
  lemma AcceptBlocksInteract(users: Users, me: UserId, sender: UserId)
    requires ValidUsers(users) && me in users && sender in users && me != sender
    ensures Interact(Accept(users, me, sender).state, me, sender).answer == Err(BadRequest, "You are already connected.")
    ensures Interact(Accept(users, me, sender).state, sender, me).answer == Err(BadRequest, "You are already connected.")
  {
    AcceptLinksBoth(users, me, sender);
  }

  /** Accepting oneself ends in 500, yet the first save has happened: the
      user is among its own connections and its own requests are gone. */
  lemma SelfAccept(users: Users, me: UserId)
    requires ValidUsers(users) && me in users
    ensures Accept(users, me, me).answer == Err(ServerError, "Server Error")
    ensures ValidUsers(Accept(users, me, me).state)
    ensures me in Accept(users, me, me).state[me].connections
    ensures !HasRequestFrom(Accept(users, me, me).state[me], me)
  {
    FilterMembers(users[me].connectionRequests, (q: ConnectionRequest) => q.from != me);
  }
}

=== FILE: recommendations.dfy ===
/** `GET /api/recommendations/jobs` (server/routes/recommendations.js): the
    five newest jobs that share a skill with the user and that the user does
    not own. Jobs are held in collection order. */
module Recommendations {
  import opened Wrappers
  import opened Seqs
  import opened UserModel
  import opened JobModel

  const Limit: nat := 5

  /** `{ skills: { $in: skills } }`: some job skill equals some given skill,
      exactly (case and white space count). */
  predicate SharesSkill(j: Job, skills: seq<string>) {
    exists k :: 0 <= k < |j.skills| && j.skills[k] in skills
  }

  /** Both query conditions; a job without an owner passes the `$ne`. */
  predicate Eligible(j: Job, uid: UserId, skills: seq<string>) {
    SharesSkill(j, skills) && j.owner != Some(uid)
  }

  /** The recommendation list: empty for a missing user or one with no
      skills; otherwise the eligible jobs, newest first, at most five. */
  function Recommend(users: Users, jobs: seq<Job>, uid: UserId): (r: seq<Job>)
    ensures uid !in users || users[uid].skills == [] ==> r == []
    ensures |r| <= Limit
  {
    if uid !in users || users[uid].skills == [] then []
    else
      var skills := users[uid].skills;
      Take(SortDesc(Filter(jobs, (j: Job) => Eligible(j, uid, skills)), CreatedAt), Limit)
  }

  /** Every recommendation is a stored job that shares a skill with the user
      and is not the user's own, and the list runs newest first. */
  lemma RecommendSound(users: Users, jobs: seq<Job>, uid: UserId)
    ensures SortedDesc(Recommend(users, jobs, uid), CreatedAt)
    ensures forall j :: j in Recommend(users, jobs, uid) ==>
              j in jobs && Eligible(j, uid, users[uid].skills)
  {
    if uid in users && users[uid].skills != [] {
      var p := (j: Job) => Eligible(j, uid, users[uid].skills);
      var sorted := SortDesc(Filter(jobs, p), CreatedAt);
      FilterMembers(jobs, p);
      SortDescMembers(Filter(jobs, p), CreatedAt);
      TakeKeepsLargest(sorted, Limit, CreatedAt);
      assert forall j :: j in Take(sorted, Limit) ==> j in sorted;
    }
  }

  /** Nothing eligible is left out in favour of something older: an eligible
      job that is not recommended while five are is no newer than each of
      them; when at most five are eligible, all of them are returned; and no
      job is recommended more often than it is eligible. */
  lemma RecommendKeepsNewest(users: Users, jobs: seq<Job>, uid: UserId)
    requires uid in users && users[uid].skills != []
    ensures var r := Recommend(users, jobs, uid);
            var eligible := Filter(jobs, (j: Job) => Eligible(j, uid, users[uid].skills));
            && (|eligible| <= Limit ==> multiset(r) == multiset(eligible))
            && multiset(r) <= multiset(eligible)
            && (|eligible| > Limit ==> |r| == Limit)
            && (forall j, i :: j in jobs && Eligible(j, uid, users[uid].skills) && j !in r && 0 <= i < |r| ==>
                  j.createdAt <= r[i].createdAt)
  {
    var skills := users[uid].skills;
    var p := (j: Job) => Eligible(j, uid, skills);
    var eligible := Filter(jobs, p);
    var sorted := SortDesc(eligible, CreatedAt);
    var r := Take(sorted, Limit);
    FilterMembers(jobs, p);
    SortDescMembers(eligible, CreatedAt);
    TakeSubMultiset(sorted, Limit);
    forall j | j in jobs && Eligible(j, uid, skills) && j !in r
      ensures forall i :: 0 <= i < |r| ==> j.createdAt <= r[i].createdAt
    {
      assert p(j);
      TakeMissing(sorted, Limit, CreatedAt, j);
    }
  }

  /** A job the user posted is never recommended, whatever its skills. */
  lemma OwnJobsNeverRecommended(users: Users, jobs: seq<Job>, uid: UserId, j: Job)
    requires j.owner == Some(uid)
    ensures j !in Recommend(users, jobs, uid)
  {
    RecommendSound(users, jobs, uid);
  }
}

=== FILE: seqs.dfy ===
/** List operations the routes and components are built from:
    `Array.prototype.filter`, insertion into a JavaScript `Set` (which keeps
    first-insertion order), and a database sort on a numeric key with newest
    (largest) first. */
module Seqs {

  /** `xs.filter(p)`. */
  function Filter<T>(xs: seq<T>, p: T -> bool): (r: seq<T>)
    ensures |r| <= |xs|
  {
    if xs == [] then []
    else if p(xs[0]) then [xs[0]] + Filter(xs[1..], p)
    else Filter(xs[1..], p)
  }

  /** The filter keeps exactly the elements that satisfy `p`. */
  lemma {:induction false} FilterMembers<T>(xs: seq<T>, p: T -> bool)
    ensures forall x :: x in Filter(xs, p) <==> x in xs && p(x)
    ensures multiset(Filter(xs, p)) <= multiset(xs)
  {
    if xs != [] {
      FilterMembers(xs[1..], p);
      assert xs == [xs[0]] + xs[1..];
    }
  }

  /** The filter keeps every copy of an element that satisfies `p` and no
      copy of one that does not. */
  lemma {:induction false} FilterCount<T>(xs: seq<T>, p: T -> bool, x: T)
    ensures multiset(Filter(xs, p))[x] == if p(x) then multiset(xs)[x] else 0
  {
    if xs != [] {
      FilterCount(xs[1..], p, x);
      assert xs == [xs[0]] + xs[1..];
    }
  }

  /** Filtering distributes over concatenation, so it keeps the relative order
      of the elements it keeps. */
  lemma {:induction false} FilterAppend<T>(xs: seq<T>, ys: seq<T>, p: T -> bool)
    ensures Filter(xs + ys, p) == Filter(xs, p) + Filter(ys, p)
  {
    if xs == [] {
      assert xs + ys == ys;
    } else {
      var zs := xs + ys;
      assert zs[0] == xs[0];
      assert zs[1..] == xs[1..] + ys;
      FilterAppend(xs[1..], ys, p);
      var rest := Filter(xs[1..], p) + Filter(ys, p);
      assert Filter(zs[1..], p) == rest;
      if p(xs[0]) {
        assert Filter(zs, p) == [xs[0]] + rest;
        assert Filter(xs, p) == [xs[0]] + Filter(xs[1..], p);
        assert [xs[0]] + rest == ([xs[0]] + Filter(xs[1..], p)) + Filter(ys, p);
      } else {
        assert Filter(zs, p) == rest;
        assert Filter(xs, p) == Filter(xs[1..], p);
      }
    }
  }

  /** Two tests that agree on the list filter it alike. */
  lemma {:induction false} FilterCongruent<T>(xs: seq<T>, p: T -> bool, q: T -> bool)
    requires forall i :: 0 <= i < |xs| ==> p(xs[i]) == q(xs[i])
    ensures Filter(xs, p) == Filter(xs, q)
  {
    if xs != [] {
      FilterCongruent(xs[1..], p, q);
    }
  }

  /** A filter that keeps everything is the identity. */
  lemma {:induction false} FilterAll<T>(xs: seq<T>, p: T -> bool)
    requires forall i :: 0 <= i < |xs| ==> p(xs[i])
    ensures Filter(xs, p) == xs
  {
    if xs != [] {
      FilterAll(xs[1..], p);
    }
  }

  /** Filtering twice with the same test is filtering once. */
  lemma {:induction false} FilterIdempotent<T>(xs: seq<T>, p: T -> bool)
    ensures Filter(Filter(xs, p), p) == Filter(xs, p)
  {
    if xs != [] {
      FilterIdempotent(xs[1..], p);
      if p(xs[0]) {
        assert Filter(xs, p)[1..] == Filter(xs[1..], p);
      }
    }
  }

  /** A filter keeps a list free of duplicates. */
  lemma {:induction false} FilterDistinct<T>(xs: seq<T>, p: T -> bool)
    requires Distinct(xs)
    ensures Distinct(Filter(xs, p))
  {
    if xs != [] {
      FilterDistinct(xs[1..], p);
      FilterMembers(xs[1..], p);
      assert xs[0] !in xs[1..] by {
        forall i | 0 <= i < |xs[1..]| ensures xs[1..][i] != xs[0] {
          assert xs[1..][i] == xs[i + 1];
        }
      }
      if p(xs[0]) {
        var r := Filter(xs, p);
        assert r == [xs[0]] + Filter(xs[1..], p);
        forall i, j | 0 <= i < j < |r| ensures r[i] != r[j] {
          if i == 0 {
            assert r[j] == Filter(xs[1..], p)[j - 1];
            assert r[j] in Filter(xs[1..], p);
          } else {
            assert r[i] == Filter(xs[1..], p)[i - 1];
            assert r[j] == Filter(xs[1..], p)[j - 1];
          }
        }
      }
    }
  }

  predicate Distinct<T(==)>(xs: seq<T>) {
    forall i, j :: 0 <= i < j < |xs| ==> xs[i] != xs[j]
  }

  /** Adds each element of `xs`, in order, to the insertion-ordered set
      `seen`, as `Set.prototype.add` does. */
  function AddAll<T(==)>(seen: seq<T>, xs: seq<T>): (r: seq<T>)
    requires Distinct(seen)
    ensures Distinct(r)
    ensures |seen| <= |r| && r[..|seen|] == seen
    ensures forall i :: 0 <= i < |xs| ==> xs[i] in r
    ensures forall i :: 0 <= i < |r| ==> r[i] in seen || r[i] in xs
    decreases |xs|
  {
    if xs == [] then seen
    else if xs[0] in seen then AddAll(seen, xs[1..])
    else
      var next := seen + [xs[0]];
      assert next[..|seen|] == seen;
      var r := AddAll(next, xs[1..]);
      assert r[..|seen|] == r[..|next|][..|seen|];
      assert r[|seen|] == next[|seen|] == xs[0];
      assert forall i :: 1 <= i < |xs| ==> xs[i] == xs[1..][i - 1];
      r
  }

  /** Adding a concatenation adds its two halves one after the other, so the
      elements of `xs` enter in the order they first arrive. */
  lemma {:induction false} AddAllAppend<T>(seen: seq<T>, xs: seq<T>, ys: seq<T>)
    requires Distinct(seen)
    ensures AddAll(seen, xs + ys) == AddAll(AddAll(seen, xs), ys)
    decreases |xs|
  {
    if xs == [] {
      assert xs + ys == ys;
    } else {
      assert (xs + ys)[0] == xs[0];
      assert (xs + ys)[1..] == xs[1..] + ys;
      if xs[0] in seen {
        AddAllAppend(seen, xs[1..], ys);
        assert AddAll(seen, xs + ys) == AddAll(seen, xs[1..] + ys);
      } else {
        AddAllAppend(seen + [xs[0]], xs[1..], ys);
        assert AddAll(seen, xs + ys) == AddAll(seen + [xs[0]], xs[1..] + ys);
      }
    }
  }

  /** The position of the first `x` in `xs`. */
  function FirstIndex<T(==)>(xs: seq<T>, x: T): (k: nat)
    requires x in xs
    ensures k < |xs| && xs[k] == x && x !in xs[..k]
  {
    if xs[0] == x then 0
    else
      var k := FirstIndex(xs[1..], x);
      assert xs[..k + 1] == [xs[0]] + xs[1..][..k];
      k + 1
  }

  /** The first occurrence is the only one with nothing equal before it. */
  lemma FirstIndexUnique<T>(xs: seq<T>, x: T, k: nat)
    requires k < |xs| && xs[k] == x && x !in xs[..k]
    ensures FirstIndex(xs, x) == k
  {
  }

  /** An element already in `ys` is first met at the same place in `ys + [x]`. */
  lemma FirstIndexSnoc<T>(ys: seq<T>, x: T, y: T)
    requires y in ys
    ensures FirstIndex(ys + [x], y) == FirstIndex(ys, y)
  {
    var k := FirstIndex(ys, y);
    assert (ys + [x])[..k] == ys[..k];
    FirstIndexUnique(ys + [x], y, k);
  }

  /** `AddAll` from nothing lists the distinct elements of `xs` in the order
      of their first occurrence, as iterating a `Set` built from `xs` does. */
  lemma {:induction false} AddAllFirstOccurrence<T>(xs: seq<T>)
    ensures forall i, j :: 0 <= i < j < |AddAll([], xs)| ==>
              FirstIndex(xs, AddAll([], xs)[i]) < FirstIndex(xs, AddAll([], xs)[j])
    decreases |xs|
  {
    if xs != [] {
      var ys, x := xs[..|xs| - 1], xs[|xs| - 1];
      assert xs == ys + [x];
      AddAllFirstOccurrence(ys);
      AddAllAppend([], ys, [x]);
      var r0 := AddAll([], ys);
      assert [x][1..] == [];
      forall y | y in r0 ensures FirstIndex(xs, y) == FirstIndex(ys, y) {
        FirstIndexSnoc(ys, x, y);
      }
      if x !in r0 {
        assert AddAll([], xs) == r0 + [x];
        assert x !in ys;
        assert xs[..|ys|] == ys;
        FirstIndexUnique(xs, x, |ys|);
      } else {
        assert AddAll([], xs) == r0;
      }
    }
  }

  ghost predicate SortedDesc<T>(xs: seq<T>, key: T -> int) {
    forall i, j :: 0 <= i < j < |xs| ==> key(xs[i]) >= key(xs[j])
  }

  /** Puts `x` in front of the first element whose key is not larger. */
  function InsertDesc<T>(x: T, xs: seq<T>, key: T -> int): (r: seq<T>)
    requires SortedDesc(xs, key)
    ensures SortedDesc(r, key)
    ensures multiset(r) == multiset(xs) + multiset{x}
    ensures |r| == |xs| + 1
    ensures r[0] == x || (xs != [] && r[0] == xs[0])
  {
    if xs == [] || key(xs[0]) <= key(x) then [x] + xs
    else
      var rest := InsertDesc(x, xs[1..], key);
      assert key(rest[0]) <= key(xs[0]);
      assert xs == [xs[0]] + xs[1..];
      [xs[0]] + rest
  }

  /** A sort on `key` with the largest key first (`sort({ key: -1 })`); equal
      keys keep their collection order. */
  function SortDesc<T>(xs: seq<T>, key: T -> int): (r: seq<T>)
    ensures SortedDesc(r, key)
    ensures multiset(r) == multiset(xs)
    ensures |r| == |xs|
  {
    if xs == [] then []
    else
      assert xs == [xs[0]] + xs[1..];
      InsertDesc(xs[0], SortDesc(xs[1..], key), key)
  }

  /** Sorting neither adds nor loses an element. */
  lemma SortDescMembers<T>(xs: seq<T>, key: T -> int)
    ensures forall x :: x in SortDesc(xs, key) <==> x in xs
  {
    var r := SortDesc(xs, key);
    forall x ensures x in r <==> x in xs {
      assert x in r <==> x in multiset(r);
      assert x in xs <==> x in multiset(xs);
    }
  }

  /** `.limit(n)`: the first `n` elements, or all of them when fewer. */
  function Take<T>(xs: seq<T>, n: nat): (r: seq<T>)
    ensures |r| == if |xs| <= n then |xs| else n
    ensures r == xs[..|r|]
  {
    if |xs| <= n then xs else xs[..n]
  }

  /** A prefix holds no more copies of anything than the whole list. */
  lemma TakeSubMultiset<T>(xs: seq<T>, n: nat)
    ensures multiset(Take(xs, n)) <= multiset(xs)
  {
    var t := Take(xs, n);
    assert xs == t + xs[|t|..];
  }

  /** An element a prefix leaves out of a sorted list is no larger than
      anything the prefix keeps. */
  lemma TakeMissing<T>(xs: seq<T>, n: nat, key: T -> int, x: T)
    requires SortedDesc(xs, key) && x in xs && x !in Take(xs, n)
    ensures forall i :: 0 <= i < |Take(xs, n)| ==> key(x) <= key(Take(xs, n)[i])
  {
    var k :| 0 <= k < |xs| && xs[k] == x;
    var t := Take(xs, n);
    assert k >= |t|;
    forall i | 0 <= i < |t| ensures key(x) <= key(t[i]) {
      assert t[i] == xs[i];
    }
  }

  /** Taking a prefix of a newest-first list keeps the newest: nothing left
      out is newer than anything kept. */
  lemma TakeKeepsLargest<T>(xs: seq<T>, n: nat, key: T -> int)
    requires SortedDesc(xs, key)
    ensures SortedDesc(Take(xs, n), key)
    ensures forall i, j :: 0 <= i < |Take(xs, n)| <= j < |xs| ==> key(xs[i]) >= key(xs[j])
  {
  }
}

=== FILE: text.dfy ===
/** The JavaScript string operations the application relies on, over
    `string` (a sequence of Unicode scalar values):
    `String.prototype.trim`, `toLowerCase` (ASCII letters only),
    `split` on a one-character separator, `Array.prototype.join`, and
    unanchored substring search (what a literal regular expression's `test`
    does). */
module Text {

  /** The characters `trim` removes: ECMAScript WhiteSpace and LineTerminator. */
  predicate IsSpace(c: char) {
    || c == ' ' || c == '\t' || c == '\n' || c == '\r'
    || c == '\U{0B}' || c == '\U{0C}' || c == '\U{A0}' || c == '\U{FEFF}'
    || c == '\U{1680}' || ('\U{2000}' <= c <= '\U{200A}')
    || c == '\U{2028}' || c == '\U{2029}' || c == '\U{202F}'
    || c == '\U{205F}' || c == '\U{3000}'
  }

  /** A string with no leading and no trailing white space. */
  predicate IsTrimmed(s: string) {
    s == [] || (!IsSpace(s[0]) && !IsSpace(s[|s| - 1]))
  }

  predicate AllSpace(s: string) {
    forall i :: 0 <= i < |s| ==> IsSpace(s[i])
  }

  /** Drops the leading white space: what is left is a suffix of `s`. */
  function TrimStart(s: string): (r: string)
    ensures |r| <= |s| && r == s[|s| - |r|..]
    ensures r == [] || !IsSpace(r[0])
  {
    if |s| > 0 && IsSpace(s[0]) then TrimStart(s[1..]) else s
  }

  /** What `TrimStart` drops is white space. */
  lemma {:induction false} TrimStartDropsSpace(s: string)
    ensures AllSpace(s[..|s| - |TrimStart(s)|])
    decreases |s|
  {
    if |s| > 0 && IsSpace(s[0]) {
      TrimStartDropsSpace(s[1..]);
      var k := |s| - |TrimStart(s)|;
      assert forall i :: 1 <= i < k ==> s[i] == s[1..][..k - 1][i - 1];
    }
  }

  /** Drops the trailing white space: what is left is a prefix of `s`. */
  function TrimEnd(s: string): (r: string)
    ensures |r| <= |s| && r == s[..|r|]
    ensures r == [] || !IsSpace(r[|r| - 1])
  {
    if |s| > 0 && IsSpace(s[|s| - 1]) then TrimEnd(s[..|s| - 1]) else s
  }

  /** What `TrimEnd` drops is white space. */
  lemma {:induction false} TrimEndDropsSpace(s: string)
    ensures AllSpace(s[|TrimEnd(s)|..])
    decreases |s|
  {
    if |s| > 0 && IsSpace(s[|s| - 1]) {
      TrimEndDropsSpace(s[..|s| - 1]);
      var k := |TrimEnd(s)|;
      assert forall i :: k <= i < |s| - 1 ==> s[i] == s[..|s| - 1][k..][i - k];
    }
  }

  /** `String.prototype.trim`. */
  function Trim(s: string): (r: string)
    ensures IsTrimmed(r)
    ensures |r| <= |s|
    ensures r == [] <==> AllSpace(s)
  {
    var t := TrimStart(s);
    TrimStartDropsSpace(s);
    assert t == [] ==> AllSpace(s) by {
      if t == [] { assert s[..|s|] == s; }
    }
    assert t != [] ==> !AllSpace(s) by {
      if t != [] { assert t[0] == s[|s| - |t|]; }
    }
    TrimEndDropsSpace(t);
    TrimEnd(t)
  }

  /** The trimmed string is one contiguous piece of `s`. */
  lemma TrimSlice(s: string) returns (i: nat)
    ensures i + |Trim(s)| <= |s| && Trim(s) == s[i..i + |Trim(s)|]
  {
    var t := TrimStart(s);
    i := |s| - |t|;
    var e := TrimEnd(t);
    assert Trim(s) == e;
    assert e == t[..|e|];
    assert t == s[i..];
    assert s[i..][..|e|] == s[i..i + |e|];
  }

  /** Trimming changes exactly the strings that are not already trimmed. */
  lemma TrimIdentity(s: string)
    ensures Trim(s) == s <==> IsTrimmed(s)
  {
    if IsTrimmed(s) && s != [] {
      assert TrimStart(s) == s;
      assert TrimEnd(s) == s;
    }
  }

  /** Leading white space never survives a trim. */
  lemma {:induction false} TrimSkipsLeadingSpace(c: char, s: string)
    requires IsSpace(c)
    ensures Trim([c] + s) == Trim(s)
  {
    assert ([c] + s)[1..] == s;
  }

  /** `xs.map(x => x.trim())`. */
  function TrimAll(xs: seq<string>): (r: seq<string>)
    ensures |r| == |xs|
    ensures forall i :: 0 <= i < |xs| ==> r[i] == Trim(xs[i]) && IsTrimmed(r[i])
  {
    seq(|xs|, i requires 0 <= i < |xs| => Trim(xs[i]))
  }

  /** `toLowerCase`, restricted to the ASCII letters. */
  function LowerChar(c: char): (r: char)
    ensures 'A' <= c <= 'Z' ==> r as int == c as int + 32
    ensures !('A' <= c <= 'Z') ==> r == c
  {
    if 'A' <= c <= 'Z' then (c as int + 32) as char else c
  }

  function Lower(s: string): (r: string)
    ensures |r| == |s|
    ensures forall i :: 0 <= i < |s| ==> r[i] == LowerChar(s[i])
  {
    if s == [] then [] else [LowerChar(s[0])] + Lower(s[1..])
  }

  /** `s.split(d)`: the pieces between occurrences of `d`; never empty. */
  function Split(s: string, d: char): (r: seq<string>)
    ensures |r| >= 1
    ensures forall i :: 0 <= i < |r| ==> d !in r[i]
  {
    if s == [] then [""]
    else
      var rest := Split(s[1..], d);
      if s[0] == d then [""] + rest
      else [[s[0]] + rest[0]] + rest[1..]
  }

  /** `parts.join(sep)`. */
  function Join(parts: seq<string>, sep: string): string {
    if |parts| == 0 then ""
    else if |parts| == 1 then parts[0]
    else parts[0] + sep + Join(parts[1..], sep)
  }

  /** Splitting and re-joining on the same character gives the string back. */
  lemma {:induction false} JoinSplit(s: string, d: char)
    ensures Join(Split(s, d), [d]) == s
  {
    if s != [] {
      var rest := Split(s[1..], d);
      JoinSplit(s[1..], d);
      if s[0] == d {
        assert Split(s, d) == [""] + rest;
        assert ([""] + rest)[1..] == rest;
      } else {
        if |rest| > 1 {
          assert Join(rest, [d]) == rest[0] + [d] + Join(rest[1..], [d]);
        }
      }
    }
  }

  /** A piece free of the separator, followed by the separator, splits off as one piece. */
  lemma {:induction false} SplitCons(x: string, y: string, d: char)
    requires d !in x
    ensures Split(x + [d] + y, d) == [x] + Split(y, d)
  {
    if x == [] {
      assert x + [d] + y == [d] + y;
      assert ([d] + y)[1..] == y;
    } else {
      SplitCons(x[1..], y, d);
      assert (x + [d] + y)[1..] == x[1..] + [d] + y;
      assert [x[0]] + x[1..] == x;
    }
  }

  /** A string free of the separator splits into itself. */
  lemma {:induction false} SplitNone(x: string, d: char)
    requires d !in x
    ensures Split(x, d) == [x]
  {
    if x != [] {
      SplitNone(x[1..], d);
      assert [x[0]] + x[1..] == x;
    }
  }

  /** Joining separator-free pieces and splitting again gives the pieces back. */
  lemma {:induction false} SplitJoin(parts: seq<string>, d: char)
    requires |parts| >= 1
    requires forall i :: 0 <= i < |parts| ==> d !in parts[i]
    ensures Split(Join(parts, [d]), d) == parts
  {
    if |parts| == 1 {
      SplitNone(parts[0], d);
    } else {
      SplitJoin(parts[1..], d);
      SplitCons(parts[0], Join(parts[1..], [d]), d);
      assert [parts[0]] + parts[1..] == parts;
    }
  }

  predicate IsPrefix(t: string, s: string) {
    |t| <= |s| && s[..|t|] == t
  }

  /** `t` occurs somewhere in `s` (an unanchored literal pattern matches). */
  predicate Contains(s: string, t: string)
    decreases |s|
  {
    IsPrefix(t, s) || (|s| > 0 && Contains(s[1..], t))
  }

  /** A substring occurrence found at an explicit position. */
  lemma {:induction false} ContainsAt(s: string, t: string, i: nat)
    requires i + |t| <= |s| && s[i..i + |t|] == t
    ensures Contains(s, t)
  {
    if i > 0 {
      assert s[1..][i - 1..i - 1 + |t|] == s[i..i + |t|];
      ContainsAt(s[1..], t, i - 1);
    }
  }

  /** Every substring occurrence sits at some position of `s`. */
  lemma {:induction false} ContainsWitness(s: string, t: string) returns (i: nat)
    requires Contains(s, t)
    ensures i + |t| <= |s| && s[i..i + |t|] == t
  {
    if IsPrefix(t, s) {
      i := 0;
    } else {
      var j := ContainsWitness(s[1..], t);
      assert s[1..][j..j + |t|] == s[j + 1..j + 1 + |t|];
      i := j + 1;
    }
  }
}

=== FILE: upload.dfy ===
/** The upload filter (server/middleware/upload.js): a file is admitted when
    both its lower-cased extension and its MIME type match the unanchored
    pattern `/jpeg|jpg|png|gif|mp4|mov|avi|pdf/`, and it is at most 50 MiB. */
module Upload {
  import opened Wrappers
  import opened Text

  datatype UploadedFile = UploadedFile(originalName: string, mimetype: string, size: nat)

  const MaxFileSize: nat := 50 * 1024 * 1024

  /** The alternatives of the pattern, in its order. */
  const FileTypes: seq<string> := ["jpeg", "jpg", "png", "gif", "mp4", "mov", "avi", "pdf"]

  /** `filetypes.test(s)`: one alternative occurs anywhere in `s`. */
  predicate MatchesFileTypes(s: string) {
    exists k :: 0 <= k < |FileTypes| && Contains(s, FileTypes[k])
  }

  /** Index of the last `c` in `s`, or -1. */
  function LastIndexOf(s: string, c: char): (k: int)
    ensures -1 <= k < |s|
    ensures k >= 0 ==> s[k] == c
    ensures forall i :: k < i < |s| ==> s[i] != c
  {
    if s == [] then -1
    else if s[|s| - 1] == c then |s| - 1
    else LastIndexOf(s[..|s| - 1], c)
  }

  function DropTrailingSlashes(s: string): (r: string)
    ensures |r| <= |s| && r == s[..|r|]
    ensures r == [] || r[|r| - 1] != '/'
  {
    if s != [] && s[|s| - 1] == '/' then DropTrailingSlashes(s[..|s| - 1]) else s
  }

  /** `r` is what is left of `p` after some prefix is cut off. */
  predicate IsSuffix(r: string, p: string) {
    |r| <= |p| && r == p[|p| - |r|..]
  }

  /** `path.basename` of a path without trailing slashes: what follows its
      last `/`. */
  function Basename(p: string): (b: string)
    ensures IsSuffix(b, p) && '/' !in b
  {
    p[LastIndexOf(p, '/') + 1..]
  }

  lemma SuffixTrans(r: string, b: string, p: string)
    requires IsSuffix(r, b) && IsSuffix(b, p)
    ensures IsSuffix(r, p)
  {
  }

  /** The segment `..`, the parent directory. */
  predicate IsDotDot(b: string) {
    |b| == 2 && b[0] == '.' && b[1] == '.'
  }

  /** The extension of one path segment: from its last `.` to its end;
      empty when it has no `.`, starts with its only `.`, or is `..`. */
  function SegmentExt(base: string): (r: string)
    ensures r == [] || (r[0] == '.' && '.' !in r[1..])
    ensures IsSuffix(r, base)
  {
    var k := LastIndexOf(base, '.');
    if k <= 0 || IsDotDot(base) then
      assert base[|base|..] == [];
      ""
    else base[k..]
  }

  /** `path.extname` (POSIX): the extension of the last path segment once
      trailing slashes are dropped. */
  function ExtName(path: string): (r: string)
    ensures r == [] || (r[0] == '.' && '.' !in r[1..] && '/' !in r)
    ensures IsSuffix(r, DropTrailingSlashes(path))
  {
    var p := DropTrailingSlashes(path);
    var base := Basename(p);
    SuffixTrans(SegmentExt(base), base, p);
    SegmentExt(base)
  }

  /** A path whose last character is not a slash has none to drop. */
  lemma NoTrailingSlash(s: string)
    requires s == [] || s[|s| - 1] != '/'
    ensures DropTrailingSlashes(s) == s
  {
  }

  /** A path with no slash is its own last segment. */
  lemma BasenameNoSlash(p: string)
    requires forall i :: 0 <= i < |p| ==> p[i] != '/'
    ensures Basename(p) == p
  {
    LastIndexOfIs(p, '/', -1);
    assert p[0..] == p;
  }

  /** The extension read off the last dot of a segment. */
  lemma SegmentExtAt(base: string, k: int)
    requires LastIndexOf(base, '.') == k
    ensures SegmentExt(base) == if k <= 0 || IsDotDot(base) then "" else base[k..]
  {
  }

  /** The characters of `name + "." + ext` after the dot are those of `ext`. */
  lemma DottedChars(name: string, ext: string)
    ensures forall i :: |name| < i < |name + "." + ext| ==>
              (name + "." + ext)[i] == ext[i - |name| - 1]
    ensures forall i :: 0 <= i < |name| ==> (name + "." + ext)[i] == name[i]
  {
  }

  /** A name, a dot and an extension free of dots and slashes: the
      extension is the dot and what follows it. */
  lemma ExtNameOf(name: string, ext: string)
    requires name != [] && '/' !in name
    requires ext != [] && '.' !in ext && '/' !in ext
    ensures ExtName(name + "." + ext) == "." + ext
  {
    var s := name + "." + ext;
    DottedChars(name, ext);
    assert s[|s| - 1] == ext[|ext| - 1];
    NoTrailingSlash(s);
    BasenameNoSlash(s);
    LastIndexOfIs(s, '.', |name|);
    SegmentExtAt(s, |name|);
    assert s[|name|..] == "." + ext;
  }

  /** A last segment whose only dot is its first character has no
      extension. */
  lemma ExtNameLeadingDot(name: string)
    requires '.' !in name && '/' !in name
    ensures ExtName("." + name) == ""
  {
    var s := "." + name;
    assert s[|s| - 1] != '/' by {
      if name != [] { assert s[|s| - 1] == name[|name| - 1]; }
    }
    NoTrailingSlash(s);
    assert forall i :: 0 < i < |s| ==> s[i] != '/' && s[i] != '.' by {
      forall i | 0 < i < |s| ensures s[i] != '/' && s[i] != '.' {
        assert s[i] == name[i - 1];
      }
    }
    BasenameNoSlash(s);
    LastIndexOfIs(s, '.', 0);
    SegmentExtAt(s, 0);
  }

  /** Only the last segment counts: the directories in front of it do not
      change the extension. */
  lemma ExtNameLastSegment(dir: string, file: string)
    requires file != [] && '/' !in file
    ensures ExtName(dir + "/" + file) == ExtName(file)
  {
    var s := dir + "/" + file;
    assert s[|s| - 1] == file[|file| - 1];
    NoTrailingSlash(s);
    NoTrailingSlash(file);
    assert forall i :: |dir| < i < |s| ==> s[i] != '/' by {
      forall i | |dir| < i < |s| ensures s[i] != '/' {
        assert s[i] == file[i - |dir| - 1];
      }
    }
    LastIndexOfIs(s, '/', |dir|);
    assert s[|dir| + 1..] == file;
    assert Basename(s) == file;
    BasenameNoSlash(file);
  }

  /** `checkFileType`: the callback receives `true` or an error message. */
  datatype Verdict = Admit | Refuse(message: string)

  const InvalidType := "Error: Invalid file type! Only images, videos, and PDFs are allowed."

  /** The extension is lower-cased before it is matched; the MIME type is
      matched as sent. */
  function CheckFileType(f: UploadedFile): (v: Verdict)
    ensures v.Admit? <==> MatchesFileTypes(Lower(ExtName(f.originalName))) && MatchesFileTypes(f.mimetype)
    ensures v.Refuse? ==> v.message == InvalidType
  {
    if MatchesFileTypes(f.mimetype) && MatchesFileTypes(Lower(ExtName(f.originalName))) then Admit
    else Refuse(InvalidType)
  }

  /** What multer hands the route: the file when the filter admits it and it
      is within the size limit, otherwise an error that the default error
      handler answers with 500. */
  function Receive(f: UploadedFile): (r: Result<UploadedFile>)
    ensures r.Ok? <==> CheckFileType(f).Admit? && f.size <= MaxFileSize
    ensures r.Ok? ==> r.value == f
    ensures r.Err? ==> r.status == ServerError
    ensures f.size > MaxFileSize ==> r.Err?
  {
    match CheckFileType(f)
    case Refuse(m) => Err(ServerError, m)
    case Admit => if f.size > MaxFileSize then Err(ServerError, "File too large") else Ok(f)
  }

  /** The last `c` is the one no later `c` follows. */
  lemma {:induction false} LastIndexOfIs(s: string, c: char, k: int)
    requires -1 <= k < |s| && (k >= 0 ==> s[k] == c)
    requires forall i :: k < i < |s| ==> s[i] != c
    ensures LastIndexOf(s, c) == k
  {
    if s != [] && s[|s| - 1] != c {
      LastIndexOfIs(s[..|s| - 1], c, k);
    }
  }

  lemma ExtNameOfPath(path: string, name: string, ext: string)
    requires name != [] && '/' !in name
    requires ext != [] && '.' !in ext && '/' !in ext
    requires path == name + "." + ext
    ensures ExtName(path) == "." + ext
  {
    ExtNameOf(name, ext);
  }

  /** A name, a dot and an extension is admitted when the lower-cased
      dotted extension and the MIME type both match. */
  lemma DottedNameAdmitted(name: string, ext: string, f: UploadedFile)
    requires name != [] && '/' !in name && ext != [] && '.' !in ext && '/' !in ext
    requires f.originalName == name + "." + ext
    requires MatchesFileTypes(Lower("." + ext)) && MatchesFileTypes(f.mimetype)
    ensures CheckFileType(f).Admit?
  {
    ExtNameOfPath(f.originalName, name, ext);
  }

  lemma MatchesAt(s: string, k: nat, i: nat)
    requires k < |FileTypes| && i + |FileTypes[k]| <= |s| && s[i..i + |FileTypes[k]|] == FileTypes[k]
    ensures MatchesFileTypes(s)
  {
    ContainsAt(s, FileTypes[k], i);
  }

  /** A name that does not merely end in an alternative is still admitted:
      the pattern is not anchored, so "holiday.jpgx" passes with any
      matching MIME type, "image/jpeg" for one (`MatchImageJpeg`). */
  lemma UnanchoredPattern(name: string, f: UploadedFile)
    requires name != [] && '/' !in name
    requires f.originalName == name + ".jpgx" && MatchesFileTypes(f.mimetype)
    ensures CheckFileType(f).Admit?
  {
    LowerJpgxMatches();
    assert name + ".jpgx" == name + "." + "jpgx";
    DottedNameAdmitted(name, "jpgx", f);
  }

  lemma LowerJpgxMatches() ensures MatchesFileTypes(Lower("." + "jpgx")) {
    assert Lower("." + "jpgx") == ".jpgx";
    MatchJpgx();
  }

  lemma MatchJpgx() ensures MatchesFileTypes(".jpgx") { MatchesAt(".jpgx", 1, 1); }
  lemma MatchImageJpeg() ensures MatchesFileTypes("image/jpeg") { MatchesAt("image/jpeg", 0, 6); }
  lemma MatchPng() ensures MatchesFileTypes(".png") { MatchesAt(".png", 2, 1); }
  lemma MatchImagePng() ensures MatchesFileTypes("image/png") { MatchesAt("image/png", 2, 6); }

  /** A capitalised extension counts: it is lower-cased first, so
      "photo.PNG" passes with any matching MIME type, "image/png" for one
      (`MatchImagePng`), although ".PNG" itself matches nothing
      (`UpperPngRefused`). */
  lemma ExtensionLowered(name: string, f: UploadedFile)
    requires name != [] && '/' !in name
    requires f.originalName == name + ".PNG" && MatchesFileTypes(f.mimetype)
    ensures CheckFileType(f).Admit?
  {
    LowerPngMatches();
    assert name + ".PNG" == name + "." + "PNG";
    DottedNameAdmitted(name, "PNG", f);
  }

  /** Unlowered, the same extension would be refused. */
  lemma UpperPngRefused()
    ensures !MatchesFileTypes(".PNG")
  {
    NoFirstLetters(".PNG");
  }

  lemma LowerPngMatches() ensures MatchesFileTypes(Lower("." + "PNG")) {
    assert Lower("." + "PNG") == ".png";
    MatchPng();
  }

  /** A pattern whose first letter does not occur cannot occur. */
  lemma {:induction false} NotContainsFirst(s: string, t: string)
    requires |t| > 0 && t[0] !in s
    ensures !Contains(s, t)
    decreases |s|
  {
    if |t| <= |s| {
      assert s[..|t|][0] == s[0];
    }
    if |s| > 0 {
      NotContainsFirst(s[1..], t);
    }
  }

  /** Without any of the pattern's first letters, nothing matches. */
  lemma NoFirstLetters(s: string)
    requires forall i :: 0 <= i < |s| ==> s[i] !in "jpgmap"
    ensures !MatchesFileTypes(s)
  {
    forall k | 0 <= k < |FileTypes|
      ensures !Contains(s, FileTypes[k])
    {
      assert FileTypes[k][0] in "jpgmap";
      NotContainsFirst(s, FileTypes[k]);
    }
  }

  /** An upper-case MIME type is refused even with a valid extension: only
      the extension is lower-cased. */
  lemma MimeTypeNotLowered(f: UploadedFile)
    requires f.originalName == "photo.png" && f.mimetype == "IMAGE/PNG"
    ensures CheckFileType(f).Refuse?
  {
    NoFirstLetters("IMAGE/PNG");
  }
}

=== FILE: user_model.dfy ===
/** The `User` document (server/models/User.js) and the users collection.

    `connections` and `connectionRequests` are read and written by the
    connection routes although the schema file does not declare them; they
    are part of the record here. */
module UserModel {
  import opened Wrappers

  type UserId = nat

  /** One pending invitation, `{ from: <sender> }`. */
  datatype ConnectionRequest = ConnectionRequest(from: UserId)

  datatype User = User(
    id: UserId,
    name: string,
    email: string,
    password: string,
    bio: string,
    linkedinURL: string,
    skills: seq<string>,
    walletAddress: string,
    createdAt: int,
    connections: seq<UserId>,
    connectionRequests: seq<ConnectionRequest>)

  /** What `.select('-password')` returns: the user without the password. */
  datatype ProfileView = ProfileView(
    id: UserId,
    name: string,
    email: string,
    bio: string,
    linkedinURL: string,
    skills: seq<string>,
    walletAddress: string,
    createdAt: int,
    connections: seq<UserId>,
    connectionRequests: seq<ConnectionRequest>)

  function View(u: User): ProfileView {
    ProfileView(u.id, u.name, u.email, u.bio, u.linkedinURL, u.skills,
                u.walletAddress, u.createdAt, u.connections, u.connectionRequests)
  }

  /** The view keeps every field but the password: two users have the same
      view exactly when they differ at most in their passwords. */
  lemma ViewDropsOnlyPassword(u1: User, u2: User)
    ensures View(u1) == View(u2) <==> u1.(password := u2.password) == u2
  {
  }

  /** The collection, keyed by document id. */
  type Users = map<UserId, User>

  /** Every document sits under its own id, and the unique index on `email`
      holds: no two users share an email. */
  ghost predicate ValidUsers(users: Users) {
    && (forall k :: k in users ==> users[k].id == k)
    && (forall a, b :: a in users && b in users && a != b ==> users[a].email != users[b].email)
  }

  /** Mongoose's `required` on a string path: present and not empty. */
  predicate Present(s: Option<string>) {
    s.Some? && s.value != ""
  }

  /** A new document: the three required strings must be given, the other
      profile paths take their schema defaults. */
  function NewUser(id: UserId, name: Option<string>, email: Option<string>,
                   password: Option<string>, now: int): (r: Result<User>)
    ensures r.Ok? <==> Present(name) && Present(email) && Present(password)
    ensures r.Err? ==> r.status == ServerError
    ensures r.Ok? ==> && r.value.id == id
                      && r.value.name == name.value
                      && r.value.email == email.value
                      && r.value.password == password.value
                      && r.value.createdAt == now
    ensures r.Ok? ==> && r.value.bio == "" && r.value.linkedinURL == ""
                      && r.value.walletAddress == "" && r.value.skills == []
                      && r.value.connections == [] && r.value.connectionRequests == []
  {
    if Present(name) && Present(email) && Present(password) then
      Ok(User(id, name.value, email.value, password.value, "", "", [], "", now, [], []))
    else
      Err(ServerError, "User validation failed")
  }

  /** Inserting a document: the unique index on `email` refuses a second
      user with an email already taken. */
  function InsertUser(users: Users, u: User): (r: Result<Users>)
    requires ValidUsers(users)
    requires u.id !in users
    ensures r.Ok? <==> forall k :: k in users ==> users[k].email != u.email
    ensures r.Ok? ==> ValidUsers(r.value) && u.id in r.value && r.value[u.id] == u
    ensures r.Ok? ==> forall k :: k in users ==> k in r.value && r.value[k] == users[k]
    ensures r.Ok? ==> r.value.Keys == users.Keys + {u.id}
    ensures r.Err? ==> r.status == ServerError
  {
    if exists k :: k in users && users[k].email == u.email then
      Err(ServerError, "E11000 duplicate key error: email")
    else
      Ok(users[u.id := u])
  }
}

=== FILE: wrappers.dfy ===
/** Optional values and HTTP-style results shared by every route model.

    A route handler either answers with a JSON body (`Ok`) or with an error
    status and message (`Err`); a missing request field or a `null` document
    lookup is an `Option`. */
module Wrappers {

  datatype Option<+T> = None | Some(value: T) {
    function GetOr(default: T): T {
      match this
      case Some(v) => v
      case None => default
    }
  }

  /** A handler's answer: a body, or an HTTP status with the message it sends. */
  datatype Result<+T> = Ok(value: T) | Err(status: nat, msg: string)

  /** A handler's whole effect: the collection after it runs, and its answer. */
  datatype Reply<+S, +T> = Reply(state: S, answer: Result<T>)

  const BadRequest: nat := 400
  const NotFound: nat := 404
  const ServerError: nat := 500
}
